=== FILE: README.md ===
# dragiyski.ui core, modelled in Dafny

`dragiyski.ui` is a Python wrapper around SDL 2. Most of it coordinates
threads and calls SDL. This project models the sequential pieces beside
that machinery and proves what they promise:

- **`Rectangle`** (`_geometry.py`), in module `Geometry`. The constructor
  resolves any consistent mix of x, y, width, height, left, top, right and
  bottom (`Resolve`). The class keeps its size positive through edge
  setters, size setters, moves and resizes (`Rectangle`).
- **`EventEmitter`** (`_event_emitter.py`), in module `Emitter`. It holds a
  table from event name to a duplicate-free list of callbacks in
  registration order. Add and remove answer with a boolean. A name whose
  last callback goes is deleted.
- **`convert_event_name`** (`_event_thread.py` and `_thread.py`, which hold
  identical copies), in module `EventNames`. It makes CamelCase names
  snake_case with two `re.sub` passes and a lowercase.
- **Tasks run on the event thread**, in module `Tasks`. `EventDelegate` in
  `_event_thread.py` and `EventTask` in `_thread.py` share one state
  machine: a task is dispatched at most once and then records the value
  returned or the exception raised.
- **Queue drains**. `_drain_queue` in `_event_thread.py` is modelled in
  module `EventThreadQueue`, together with `get_delegate_from_args`.
  `EventThread.drain_queue` and `terminate_stage1` in `_thread.py` are
  modelled in module `Threading`.
- **Window creation** (`_window.py`), in module `Windows`. It covers
  default sizes from the usable display bounds, the SDL window flag word
  and the id-to-window registry.
- **The application** (`_application.py`), in module `Apps`. It covers the
  single-application rule, the application-thread guard, and the routing
  of display events in `Application.run`.

`Wrappers` holds the `Option`, `Result` and `Outcome` types that model
`None` and raised exceptions.

Some inputs come from outside the model and are parameters:
- the usable display bounds;
- whether the caller is the event thread;
- the running asyncio loop;
- what a task's function would do when called;
- the events SDL delivers.

SDL constants take their SDL 2 header values.

## Model

| member | source | states |
|---|---|---|
| Geometry.Rect.Right | src/dragiyski/ui/_geometry.py:113-115 | The right edge is the last column covered: columns x to right number `width`, and for a valid rectangle right is not left of x |
| Geometry.Rect.Bottom | src/dragiyski/ui/_geometry.py:121-123 | The bottom edge is the last row covered: rows y to bottom number `height`, and for a valid rectangle bottom is not above y |
| Geometry.Rect.WithRight | src/dragiyski/ui/_geometry.py:113-119 | After assigning `right`, the right edge reads back as the assigned value; y, width and height are unchanged |
| Geometry.Rect.WithBottom | src/dragiyski/ui/_geometry.py:121-127 | After assigning `bottom`, the bottom edge reads back as the assigned value; x, width and height are unchanged |
| Geometry.Rect.MovedBy | src/dragiyski/ui/_geometry.py:129-132 | Moving by (dx, dy) adds dx and dy to x, y, right and bottom and keeps the size |
| Geometry.Rect.ResizedTo | src/dragiyski/ui/_geometry.py:154-160 | A resize succeeds iff both sizes are positive; it keeps the position and yields a valid rectangle; a failure names width before height |
| Geometry.Derive | src/dragiyski/ui/_geometry.py:19-42 | The arguments name a position and size iff x (or left, or right and width), y (or top, or bottom and height), width or right, and height or bottom are present; any other case is a Missing error; supplied x, y, width and height are kept |
| Geometry.Check | src/dragiyski/ui/_geometry.py:43-54 | The consistency and size checks: with y as the vertical reference, a derived rectangle passes iff every supplied edge describes it and its size is positive; a failure is Conflicting or NonPositive, and a NonPositive failure means the edges agreed |
| Geometry.Resolve | src/dragiyski/ui/_geometry.py:19-54 | An accepted rectangle has a positive size and agrees with every supplied argument; a Missing error occurs exactly when the arguments do not determine a rectangle |
| Geometry.DeriveUnique | src/dragiyski/ui/_geometry.py:19-42 | Determining arguments describe exactly one rectangle, the derived one |
| Geometry.ResolveComplete | src/dragiyski/ui/_geometry.py:19-54 | Every determining, consistent description of a rectangle of positive size is accepted and yields that rectangle |
| Geometry.ConflictMeansNoRectangle | src/dragiyski/ui/_geometry.py:43-50 | A conflicting-argument TypeError is raised only when no rectangle agrees with all the arguments |
| Geometry.ResolveAsWritten | src/dragiyski/ui/_geometry.py:47-50 | The constructor as written: bottom and top are compared against x |
| Geometry.TopCheckAsWrittenRejectsConsistentArgs | src/dragiyski/ui/_geometry.py:49-50 | x=0, width=10, height=10, top=5 is rejected as written and accepted as intended |
| Geometry.AsWrittenAgreesWithoutVerticalEdges | src/dragiyski/ui/_geometry.py:47-50 | Without top and bottom arguments, the written constructor and the intended one agree |
| Geometry.Rectangle.FromRect | src/dragiyski/ui/_geometry.py:55-59 | Stores a resolved rectangle of positive size |
| Geometry.Rectangle.New | src/dragiyski/ui/_geometry.py:7-59 | Construction succeeds iff the arguments resolve; a new object then holds the resolved rectangle; otherwise the resolution error is raised |
| Geometry.Rectangle.Left | src/dragiyski/ui/_geometry.py:97-99 | The left edge is x and is never right of the right edge |
| Geometry.Rectangle.Top | src/dragiyski/ui/_geometry.py:105-107 | The top edge is y and is never below the bottom edge |
| Geometry.Rectangle.Right | src/dragiyski/ui/_geometry.py:113-115 | Columns from left to right number the width |
| Geometry.Rectangle.Bottom | src/dragiyski/ui/_geometry.py:121-123 | Rows from top to bottom number the height |
| Geometry.Rectangle.SetLeft | src/dragiyski/ui/_geometry.py:101-103 | Assigning `left` (or `x`) changes only x |
| Geometry.Rectangle.SetTop | src/dragiyski/ui/_geometry.py:109-111 | Assigning `top` (or `y`) changes only y |
| Geometry.Rectangle.SetRight | src/dragiyski/ui/_geometry.py:117-119 | The right edge reads back as assigned and the size is unchanged |
| Geometry.Rectangle.SetBottom | src/dragiyski/ui/_geometry.py:125-127 | The bottom edge reads back as assigned and the size is unchanged |
| Geometry.Rectangle.SetWidth | src/dragiyski/ui/_geometry.py:81-85 | A positive width is stored; a non-positive one raises ValueError and changes nothing |
| Geometry.Rectangle.SetHeight | src/dragiyski/ui/_geometry.py:91-95 | A positive height is stored; a non-positive one raises ValueError and changes nothing |
| Geometry.Rectangle.MoveBy | src/dragiyski/ui/_geometry.py:129-132 | The held rectangle is the old one moved by (dx, dy); the size stays positive |
| Geometry.Rectangle.MoveTo | src/dragiyski/ui/_geometry.py:134-137 | x and y are set exactly; the size is unchanged |
| Geometry.Rectangle.ResizeTo | src/dragiyski/ui/_geometry.py:154-160 | Succeeds iff both sizes are positive and then holds the resized rectangle; on failure nothing changes |
| Geometry.Rectangle.ResizeBy | src/dragiyski/ui/_geometry.py:162-163 | Behaves as `resize_to(w + dw, h + dh)`: succeeds on the same sizes, gives the same rectangle or raises the same error, and changes nothing on failure |
| Emitter.IndexOf | src/dragiyski/ui/_event_emitter.py:24 | The index of the first occurrence of the element |
| Emitter.RemoveFirst | src/dragiyski/ui/_event_emitter.py:24 | `list.remove` deletes the first occurrence and keeps every other element in order |
| Emitter.RemoveFirstFromUnique | src/dragiyski/ui/_event_emitter.py:24 | In a duplicate-free list, removal deletes the callback, keeps every other callback and leaves the list duplicate-free |
| Emitter.RemoveFirstAppended | src/dragiyski/ui/_event_emitter.py:17-24 | Removing a freshly appended callback gives back the original list |
| Emitter.WithListener | src/dragiyski/ui/_event_emitter.py:13-18 | Adding a new callback appends it at the end of its name's list; the table keeps no empty list and no duplicate; other names are untouched |
| Emitter.WithoutListener | src/dragiyski/ui/_event_emitter.py:21-29 | Removing a callback unregisters it and keeps the others in registration order; the name is deleted when its list empties; other names are untouched |
| Emitter.AddThenRemove | src/dragiyski/ui/_event_emitter.py:13-30 | Adding a fresh callback and then removing it restores the table exactly, key set included |
| Emitter.Scheduled | src/dragiyski/ui/_event_emitter.py:54-56 | Emitting a name with no listeners does nothing; otherwise it schedules exactly the callbacks registered under the name |
| Emitter.ScheduledAsWritten | src/dragiyski/ui/_event_emitter.py:57 | What `emit_event` as written submits: the event names of the table |
| Emitter.EmitAsWrittenCallsNames | src/dragiyski/ui/_event_emitter.py:57 | With only `f` registered for "click", the written code submits the name "click" where the intended code calls `f` |
| Emitter.EventEmitter.constructor | src/dragiyski/ui/_event_emitter.py:9-11 | A new emitter has an empty table |
| Emitter.EventEmitter.AddEventListener | src/dragiyski/ui/_event_emitter.py:13-19 | Answers true iff the callback was not registered under the name; it then appends the callback, and otherwise changes nothing; the table stays well formed |
| Emitter.EventEmitter.RemoveEventListener | src/dragiyski/ui/_event_emitter.py:21-30 | Answers true iff the callback was registered under the name; afterwards it is not; the table stays well formed |
| Emitter.EventEmitter.EmitEvent | src/dragiyski/ui/_event_emitter.py:54-57 | Schedules what `Scheduled` names for the table: nothing for a name without listeners, otherwise exactly the name's listeners in order |
| EventNames.LowerRun | src/dragiyski/ui/_event_thread.py:79 | The greedy `[a-z]+` run: all lowercase, and stops at a non-lowercase character |
| EventNames.Lower | src/dragiyski/ui/_event_thread.py:86 | Lowercasing keeps the length, lowers each character and leaves no capital letter |
| EventNames.SplitWords | src/dragiyski/ui/_event_thread.py:79-84 | The first substitution, scanning left to right as `re.sub` does, only inserts underscores; `SplitWordsSplitsWords` states which |
| EventNames.SplitWordsSplitsWords | src/dragiyski/ui/_event_thread.py:79-84 | After the first substitution, every capitalised word (a capital then a lowercase letter) past the first character follows an underscore, a newline or a lowercase letter, so the identity does not meet it ("HTTPServer" needs an underscore before "Server") |
| EventNames.SplitWordsBeforeWord | src/dragiyski/ui/_event_thread.py:79-84 | A prefix in which no capitalised word starts, ending in a character other than a newline, followed by a capitalised word, gets exactly one underscore, just before that word |
| EventNames.SplitCamelSeparated | src/dragiyski/ui/_event_thread.py:80-85 | The second substitution changes nothing in a string with no lowercase letter or digit directly before a capital |
| EventNames.SplitCamel | src/dragiyski/ui/_event_thread.py:80-85 | The second substitution, scanning left to right as `re.sub` does, only inserts underscores, keeps the first character, and leaves no lowercase letter or digit directly before a capital |
| EventNames.LowerChar | src/dragiyski/ui/_event_thread.py:86 | A capital becomes the lowercase letter at the same place in the alphabet; any other character is kept |
| EventNames.InsertedTrans | src/dragiyski/ui/_event_thread.py:84-85 | Inserting underscores twice is inserting underscores |
| EventNames.InsertedLower | src/dragiyski/ui/_event_thread.py:86 | Lowercasing keeps the underscore-insertion relation |
| EventNames.NoUpperUnchanged | src/dragiyski/ui/_event_thread.py:79-86 | A name without capitals passes both substitutions and the lowercase unchanged |
| EventNames.ConvertEventName | src/dragiyski/ui/_event_thread.py:83-86 | The result contains no capital letter and is the lowercased name with only underscores inserted; it is the lowering of an underscore-inserted name in which no lowercase letter or digit is directly followed by a capital, so every such CamelCase boundary is split by an underscore |
| EventNames.ConvertEventNameSplitsWords | src/dragiyski/ui/_event_thread.py:83-86 | The result is the lowering of the name with underscores added in two passes: the first leaves every capitalised word after another character separated, the second leaves every lowercase letter or digit separated from a following capital |
| EventNames.ConvertEventNameBeforeWord | src/dragiyski/ui/_event_thread.py:83-86 | A prefix with no capitalised word and no lowercase-then-capital pair inside, followed by a capitalised word, becomes the lowered prefix, one underscore and the lowered word |
| EventNames.ConvertEventNameAcronym | src/dragiyski/ui/_thread.py:21-24 | An acronym of capitals followed by a capitalised word becomes the lowered acronym, one underscore and the lowered word ("HTTPServer" to "http_server", not "httpserver") |
| EventNames.ConvertEventNameKeepsSnakeCase | src/dragiyski/ui/_thread.py:17-24 | A name without capitals is returned unchanged |
| EventNames.ConvertEventNameIdempotent | src/dragiyski/ui/_event_thread.py:83-86 | Converting twice gives the same result as converting once |
| EventNames.ConvertEventNameExample | src/dragiyski/ui/_event_thread.py:83-86 | "keyUp" becomes "key_up" |
| Tasks.Created | src/dragiyski/ui/_thread.py:28-35 | A new task is not done and records nothing |
| Tasks.TaskState.HasException | src/dragiyski/ui/_thread.py:37-38 | In a consistent state, has_exception holds iff an exception is recorded |
| Tasks.Dispatched | src/dragiyski/ui/_event_thread.py:184-192 | A dispatch of a task already done changes nothing; the first one marks it done; it then has an exception iff the function raised; otherwise it records the returned value |
| Tasks.DispatchAtMostOnce | src/dragiyski/ui/_thread.py:55-57 | A later dispatch, whatever its function would do, leaves the task as the first dispatch left it |
| Tasks.EventTask.constructor | src/dragiyski/ui/_thread.py:28-35 | A new task is in the created state and its function has not run |
| Tasks.EventTask.Done | src/dragiyski/ui/_thread.py:46-47 | done() holds iff the function has run |
| Tasks.EventTask.HasException | src/dragiyski/ui/_thread.py:37-38 | has_exception() implies done(), and holds iff an exception is recorded |
| Tasks.EventTask.Result | src/dragiyski/ui/_thread.py:43-44 | result() is None until the task is done |
| Tasks.EventTask.Exception | src/dragiyski/ui/_thread.py:40-41 | exception() is None until the task is done; a recorded exception makes has_exception() hold |
| Tasks.EventTask.Dispatch | src/dragiyski/ui/_thread.py:55-64 | After dispatch the task is done and its function has run exactly once; has_exception holds iff the function raised; result() is the returned value |
| EventThreadQueue.EventQueue.constructor | src/dragiyski/ui/_event_thread.py:133-134 | The queue starts empty and the running flag down |
| EventThreadQueue.EventQueue.GetTask | src/dragiyski/ui/_event_thread.py:138-142 | Removes and returns the head of the queue, or None when it is empty |
| EventThreadQueue.EventQueue.DrainQueue | src/dragiyski/ui/_event_thread.py:145-153 | Dispatches every queued task oldest first until the queue is empty; each is done and in its dispatched state; the running flag is down on exit |
| EventThreadQueue.DelegateFor | src/dragiyski/ui/_event_thread.py:284-301 | The call is synchronous iff async_loop is False, or None with no running loop; an explicit loop is used as given; True uses the running loop, else a new one |
| Threading.StageAfterTerminate | src/dragiyski/ui/_thread.py:153-158 | Stage 1 becomes 0; stage 2 becomes 0 only with no listener and no window; other stages are kept |
| Threading.TerminateStage1AsWritten | src/dragiyski/ui/_thread.py:153-156 | As written, every stage except 1 raises AttributeError |
| Threading.TerminateAsWrittenRaisesInStage2 | src/dragiyski/ui/_thread.py:156 | In stage 2 with nothing left, the written method raises where the intended one ends the stage |
| Threading.EventThread.constructor | src/dragiyski/ui/_thread.py:69-73 | A new event thread has an empty task queue, stage 0 and the in-queue flag clear |
| Threading.EventThread.GetTask | src/dragiyski/ui/_thread.py:119-123 | Removes and returns the head of the task queue, or None when it is empty |
| Threading.EventThread.DrainQueue | src/dragiyski/ui/_thread.py:125-134 | Dispatches every queued task oldest first until the queue is empty; the in-queue flag is cleared on exit; the stage is unchanged |
| Threading.EventThread.TerminateStage1 | src/dragiyski/ui/_thread.py:153-158 | Stage 1 moves to stage 0 |
| Windows.CreateFlags | src/dragiyski/ui/_window.py:123-137 | SHOWN iff visible and HIDDEN iff not; RESIZABLE, MINIMIZED and MAXIMIZED iff asked; FULLSCREEN_DESKTOP iff desktop; FULLSCREEN iff desktop or real; no other bit |
| Windows.FilledSize | src/dragiyski/ui/_window.py:60-65 | A supplied size is kept; a missing one is half the usable extent, rounded down |
| Windows.WindowPosition.constructor | src/dragiyski/ui/_window.py:33-35 | A position holds x, y, optional width and height, and its display |
| Windows.GetArgumentsFromPosition | src/dragiyski/ui/_window.py:58-66 | Returns x and y unchanged and the filled sizes, and writes the sizes back into the position, so a second call returns the same geometry |
| Windows.CreateWindowArguments | src/dragiyski/ui/_window.py:121-139 | The arguments for SDL_CreateWindow: the title, the filled geometry (written back into the position) and a flag word with every flag set iff its option asks for it and no other bit |
| Windows.WindowRegistry.constructor | src/dragiyski/ui/_window.py:9 | The registry starts empty |
| Windows.WindowRegistry.Lookup | src/dragiyski/ui/_window.py:74-80 | Off the event thread it raises RuntimeError; otherwise it returns the window registered under the id, or raises NotFound |
| Windows.WindowRegistry.Register | src/dragiyski/ui/_window.py:152-160 | Window id 0 is an error and registers nothing; any other id maps to the new window |
| Apps.Rotation | src/dragiyski/ui/_application.py:76-84 | Portrait 0, landscape 90, flipped portrait 180, flipped landscape 270; any other orientation has no rotation |
| Apps.RotationInjective | src/dragiyski/ui/_application.py:77-84 | Different orientations report different rotations |
| Apps.Callbacks | src/dragiyski/ui/_application.py:66-86 | CONNECTED calls on_display_connected and DISCONNECTED calls on_display_disconnected, each with the display index; an orientation with a known rotation calls on_display_orientation_change with that rotation, and only then; other events call nothing |
| Apps.Trace | src/dragiyski/ui/_application.py:56-88 | The callbacks of a stream of events: at most one per event, and none when no display event arrives |
| Apps.QuitEndsTrace | src/dragiyski/ui/_application.py:61-63 | No event after SDL_QUIT has any effect |
| Apps.TraceRotations | src/dragiyski/ui/_application.py:85-86 | Every rotation reported is 0, 90, 180 or 270 |
| Apps.Run | src/dragiyski/ui/_application.py:56-88 | The loop invokes the callbacks of each event in turn, up to and including the first SDL_QUIT, which ends it |
| Apps.CheckApplicationThread | src/dragiyski/ui/_application.py:27-34 | The call passes iff an application exists and is the calling thread's own; no application raises first |
| Apps.ApplicationState.constructor | src/dragiyski/ui/_application.py:6-7 | No application exists and no thread holds one |
| Apps.ApplicationState.NewApplication | src/dragiyski/ui/_application.py:10-15 | A second application raises ReferenceError and changes nothing; a thread that already holds one raises RuntimeError; otherwise the new one becomes the singleton and guarded calls pass on its thread |

## Left out

- SDL calls are not modelled: `SDL_InitSubSystem`, `SDL_WasInit`, `SDL_WaitEvent`, `SDL_PushEvent`, `SDL_CreateWindow`, `SDL_GetWindowID`, `SDL_DestroyWindow`, `SDL_GetError`, and the `SDL_free` of dropped files and text. They are foreign calls. Their results (usable bounds, window ids, events) are parameters.
- Threads are not modelled. That covers `threading.Event`, the `wait` methods, `_ensure_event_thread`, `delegate_sync_call`, `delegate_async_call`, `on_process_exit`, `EventThread.run`, `execute`, `wait_for_atexit`, `in_event_thread`, `add_event_listener` of `_thread.py`, and the window lifeline thread. A drain sees the queue as it stands when the drain starts; tasks put by other threads during a drain are outside the model.
- `emit_event` hands callbacks to a `ThreadPoolExecutor`, and `_execute` and `_exception_check` run them. This is concurrency; the model stops at the list of callbacks scheduled.
- The `parent` of an `EventEmitter` is stored but never used, and is not modelled.
- Emitter.EventEmitter.EmitEvent: returns the intended listener list, not the names the written code submits; that discrepancy is a Finding.
- `Rectangle.resize_around` is not modelled, because it uses float division and `math.floor`. `create_rectangle` is not modelled, because it wraps a raw `SDL_Rect` without any check.
- Rectangle coordinates are unbounded integers. The `SDL_Rect` fields they are stored in are C `int`s, whose 32-bit truncation is not modelled.
- `EventFuture` and the event consumption of `_event_thread.py` are not part of this model.
- `str.lower` is modelled on ASCII letters only. Python also lowercases other Unicode capitals; these have no `[A-Z]` match, so they affect only the final lowercase.
- The title's UTF-8 encoding in `Window.create` is not modelled; the title is kept as a string.
- The `WindowPosition` class methods are not modelled. `from_rectangle` copies a rectangle's x, y, width and height into a new position, which the constructor model covers. `centered`, `centered_at` and `undefined` pick SDL position constants for x and y.
- `_display.py`, `_event.py`, `_error.py` and `setup.py` are not part of this model.
- A task's function is modelled by what it would do (`CallResult`), fixed when the task is created. The exception is stored as the value raised; Python stores the `sys.exc_info()` triple.
- Apps.ApplicationState.NewApplication: assumes the rest of `Application.__init__` succeeds. As written it does not: see the `DisplayList` import below.
- Windows.WindowRegistry.Lookup: `onEventThread` says whether the caller is the running event thread, as intended; as written the guard never sees that thread (see below).
- Apps.Run: the loop's own start-up check of the events subsystem is not modelled. As written, `SDL_InitSubSystem(...) == 0` raises on success.

The following source defects either stop the code from running as written or make it compute the wrong thing. The model follows the evident intent instead:
- `WindowPosition.__init__` names `Optiona`, `w` and `h`, which are undefined (`_window.py:33-34`). The model stores the width and height given.
- `WindowPosition.centered_at` is defined twice (`_window.py:46`, `_window.py:54`). The code runs, but the second definition replaces the first, so `centered_at(d)` gives the undefined position on display d rather than a centred one. The class methods are not part of this model.
- `Window.create` defaults `fullscreen` to `FullScreen.WINDOWED`, which does not exist (`_window.py:107`); the member is `WINDOW`. The model uses `Windowed`.
- `Window.create` ORs the flags into `args[5]` while the list is named `sdl_args` (`_window.py:125-137`). It also passes the `kwargs` dict as the loop to `get_delegate_from_args` (`_window.py:138`). The model builds the flag word into the arguments.
- `Window._create` tests and stores under the builtin `id` instead of `window_id` (`_window.py:153`, `_window.py:160`). The code runs, but the test at line 153 is always false, so a window SDL gave no id is never refused. Every window is stored under the builtin function, so `Window(window_id)` never finds it. `Register` uses the window id.
- `Application.run` calls an undefined `_quit` on SDL_QUIT (`_application.py:62`). The model ends the loop.
- `on_display_connected`, `on_display_disconnected` and `on_display_orientation_change` lack `self` (`_application.py:90-106`). The model records each call.
- `_window.py:6` imports `_event_thread` by value. The guard at `_window.py:75` therefore sees the value from import time, None unless the event thread was already running, so `Window(id)` raises RuntimeError even on the event thread. `Lookup` takes whether the caller is the event thread as a parameter.
- `Application.__init__` marks the calling thread (`_application.py:42`) and then imports `DisplayList` from `_display.py` (`_application.py:43`), which defines no `DisplayList` and itself imports a missing `._sdl`. As written every `Application()` raises ImportError after marking the thread: the singleton is never set, and a retry on that thread raises RuntimeError. `NewApplication` models the constructor as if the import succeeded.
- The `EventEmitter` constructor's annotation names the class before it exists (`_event_emitter.py:9`). The annotation has no behaviour to model.

## Findings

| source | as written | input that shows it | evidently intended | confidence | as-written member | corrected member |
|---|---|---|---|---|---|---|
| src/dragiyski/ui/_geometry.py:47-50 | The bottom and top consistency checks compare against x | `Rectangle(0, width=10, height=10, top=5)` raises TypeError for `top` | Compare against y, so that every consistent description is accepted | high (not executed) | Geometry.TopCheckAsWrittenRejectsConsistentArgs | Geometry.ResolveComplete |
| src/dragiyski/ui/_thread.py:156 | The second branch reads `self.__state`, which is never set | `terminate_stage1()` in stage 2 raises AttributeError | Read `self.__stage`, so that stage 2 ends once no listener and no window is left | high (not executed) | Threading.TerminateAsWrittenRaisesInStage2 | Threading.StageAfterTerminate |
| src/dragiyski/ui/_event_emitter.py:57 | One call is submitted per event name in the table | With only `f` registered for "click", `emit_event("click")` calls the string "click" | Iterate over the listeners of `name` | high (not executed) | Emitter.EmitAsWrittenCallsNames | Emitter.Scheduled |

=== FILE: application.dfy ===
/** The application object of `_application.py`: the one-application rule,
    the application-thread guard and the routing of display events in the
    event loop.

    Event type, display event and orientation codes are those of SDL 2
    (`SDL_EventType`, `SDL_DisplayEventID`, `SDL_DisplayOrientation`). The
    events the loop waits for are given as a sequence. */
module Apps {
  import opened Wrappers

  /** SDL_QUIT. */
  const QuitEvent := 0x100
  /** SDL_DISPLAYEVENT. */
  const DisplayEvent := 0x150

  /** SDL_DISPLAYEVENT_ORIENTATION. */
  const DisplayOrientation := 1
  /** SDL_DISPLAYEVENT_CONNECTED. */
  const DisplayConnected := 2
  /** SDL_DISPLAYEVENT_DISCONNECTED. */
  const DisplayDisconnected := 3

  /** SDL_ORIENTATION_LANDSCAPE. */
  const OrientationLandscape := 1
  /** SDL_ORIENTATION_LANDSCAPE_FLIPPED. */
  const OrientationLandscapeFlipped := 2
  /** SDL_ORIENTATION_PORTRAIT. */
  const OrientationPortrait := 3
  /** SDL_ORIENTATION_PORTRAIT_FLIPPED. */
  const OrientationPortraitFlipped := 4

  /** The rotation in degrees an orientation reports: portrait 0,
      landscape 90, flipped portrait 180, flipped landscape 270; any other
      code reports none. Different orientations report different rotations. */
  function Rotation(orientation: int): (r: Option<int>)
    ensures r.Some? <==> orientation in {OrientationPortrait, OrientationLandscape, OrientationPortraitFlipped, OrientationLandscapeFlipped}
    ensures r.Some? ==> r.value in {0, 90, 180, 270}
    ensures orientation == OrientationPortrait ==> r == Some(0)
    ensures orientation == OrientationLandscape ==> r == Some(90)
    ensures orientation == OrientationPortraitFlipped ==> r == Some(180)
    ensures orientation == OrientationLandscapeFlipped ==> r == Some(270)
  {
    if orientation == OrientationPortrait then Some(0)
    else if orientation == OrientationLandscape then Some(90)
    else if orientation == OrientationPortraitFlipped then Some(180)
    else if orientation == OrientationLandscapeFlipped then Some(270)
    else None
  }

  /** Two orientations that report a rotation report the same one only if
      they are the same orientation. */
  lemma RotationInjective(a: int, b: int)
    requires Rotation(a).Some? && Rotation(a) == Rotation(b)
    ensures a == b
  {
  }

  /** The fields of an SDL event the loop reads: its type and, for a display
      event, the display event code, the display index and `data1`. */
  datatype Event = Event(kind: int, displayEvent: int, display: int, data1: int)

  /** The application callbacks the loop invokes. */
  datatype Callback =
    | OnDisplayConnected(display: int)
    | OnDisplayDisconnected(display: int)
    | OnDisplayOrientationChange(display: int, rotation: int)

  /** The callbacks one event other than SDL_QUIT triggers: a display event
      is tested against connected, disconnected and orientation in turn (at
      most one of them matches); an orientation with no rotation triggers
      nothing. */
  function Callbacks(e: Event): (r: seq<Callback>)
    ensures |r| <= 1
    ensures e.kind != DisplayEvent ==> r == []
    ensures forall c :: c in r ==> c.display == e.display
    ensures r == [OnDisplayConnected(e.display)] <==> e.kind == DisplayEvent && e.displayEvent == DisplayConnected
    ensures r == [OnDisplayDisconnected(e.display)] <==> e.kind == DisplayEvent && e.displayEvent == DisplayDisconnected
    ensures e.kind == DisplayEvent && e.displayEvent == DisplayOrientation && Rotation(e.data1).Some? ==>
      r == [OnDisplayOrientationChange(e.display, Rotation(e.data1).value)]
    ensures forall c :: c in r && c.OnDisplayOrientationChange? ==>
      e.displayEvent == DisplayOrientation && Rotation(e.data1) == Some(c.rotation)
  {
    if e.kind != DisplayEvent then []
    else if e.displayEvent == DisplayConnected then [OnDisplayConnected(e.display)]
    else if e.displayEvent == DisplayDisconnected then [OnDisplayDisconnected(e.display)]
    else if e.displayEvent == DisplayOrientation && Rotation(e.data1).Some? then
      [OnDisplayOrientationChange(e.display, Rotation(e.data1).value)]
    else []
  }

  /** The callbacks the loop invokes for a stream of events: those of each
      event in order, up to the first SDL_QUIT. Each event triggers at most
      one callback, and only display events trigger any. */
  function Trace(events: seq<Event>): (r: seq<Callback>)
    ensures |r| <= |events|
    ensures (forall i :: 0 <= i < |events| ==> events[i].kind != DisplayEvent) ==> r == []
  {
    if events == [] then []
    else if events[0].kind == QuitEvent then []
    else Callbacks(events[0]) + Trace(events[1..])
  }

  /** No event after an SDL_QUIT has any effect. */
  lemma {:induction false} QuitEndsTrace(before: seq<Event>, quit: Event, after: seq<Event>)
    requires forall i :: 0 <= i < |before| ==> before[i].kind != QuitEvent
    requires quit.kind == QuitEvent
    ensures Trace(before + [quit] + after) == Trace(before)
  {
    if before != [] {
      assert (before + [quit] + after)[1..] == before[1..] + [quit] + after;
      QuitEndsTrace(before[1..], quit, after);
    } else {
      assert before + [quit] + after == [quit] + after;
    }
  }

  /** Every rotation the loop reports is 0, 90, 180 or 270. */
  lemma {:induction false} TraceRotations(events: seq<Event>)
    ensures forall c :: c in Trace(events) && c.OnDisplayOrientationChange? ==> c.rotation in {0, 90, 180, 270}
  {
    if events != [] && events[0].kind != QuitEvent {
      TraceRotations(events[1..]);
      assert Trace(events) == Callbacks(events[0]) + Trace(events[1..]);
    }
  }

  /** The error cases of creating and using the application. */
  datatype AppError =
    | AlreadyActive              // ReferenceError: an application exists
    | ThreadHasApplication       // RuntimeError from the constructor
    | NoApplication              // RuntimeError: there is no application
    | OutsideApplicationThread   // RuntimeError: called from another thread

  /** The guard `ensure_application_thread` puts in front of a call, given
      the application singleton and each thread's own application (the
      thread-local `application_storage`). */
  function CheckApplicationThread(singleton: Option<nat>, threadApplication: map<nat, nat>, thread: nat): (o: Outcome<AppError>)
    ensures o.Pass? <==> singleton.Some? && thread in threadApplication && threadApplication[thread] == singleton.value
    ensures singleton.None? ==> o == Fail(NoApplication)
    ensures singleton.Some? && o.Fail? ==> o.error == OutsideApplicationThread
  {
    if singleton.None? then Fail(NoApplication)
    else if thread !in threadApplication || threadApplication[thread] != singleton.value then Fail(OutsideApplicationThread)
    else Pass
  }

  /** The module's application state: the singleton and each thread's
      application. Applications and threads are named by numbers. */
  class ApplicationState {
    var singleton: Option<nat>
    var threadApplication: map<nat, nat>

    constructor ()
      ensures singleton.None? && threadApplication == map[]
    {
      singleton, threadApplication := None, map[];
    }

    /** `Application()` called on `thread`, the new object being `app`: with
        an application already active it raises ReferenceError and changes
        nothing; a thread that already holds an application raises
        RuntimeError; otherwise `app` becomes the singleton and the thread's
        application, and calls guarded by `ensure_application_thread` pass on
        that thread. */
    method NewApplication(thread: nat, app: nat) returns (r: Result<nat, AppError>)
      modifies this
      ensures old(singleton).Some? ==> r == Failure(AlreadyActive)
      ensures old(singleton).None? && thread in old(threadApplication) ==> r == Failure(ThreadHasApplication)
      ensures r.Failure? ==> singleton == old(singleton) && threadApplication == old(threadApplication)
      ensures r.Success? <==> old(singleton).None? && thread !in old(threadApplication)
      ensures r.Success? ==> r.value == app && singleton == Some(app)
      ensures r.Success? ==> threadApplication == old(threadApplication)[thread := app]
      ensures r.Success? ==> CheckApplicationThread(singleton, threadApplication, thread) == Pass
    {
      if singleton.Some? {
        return Failure(AlreadyActive);
      }
      if thread in threadApplication {
        return Failure(ThreadHasApplication);
      }
      threadApplication := threadApplication[thread := app];
      singleton := Some(app);
      r := Success(app);
    }
  }

  /** One step of the loop: an event other than SDL_QUIT contributes its
      callbacks ahead of those of the events after it. */
  lemma TraceStep(events: seq<Event>, k: nat)
    requires k < |events| && events[k].kind != QuitEvent
    ensures Trace(events[k..]) == Callbacks(events[k]) + Trace(events[k + 1..])
  {
    assert events[k..][1..] == events[k + 1..];
  }

  /** The events from an SDL_QUIT on contribute nothing. */
  lemma TraceAtQuit(events: seq<Event>, k: nat)
    requires k < |events| && events[k].kind == QuitEvent
    ensures Trace(events[k..]) == []
  {
    assert events[k..][0] == events[k];
  }

  /** `Application.run`: waits for events and handles each in turn until
      SDL_QUIT, which ends the loop. `calls` are the callbacks invoked,
      `consumed` the number of events taken, and `quit` whether the loop
      ended. */
  method Run(events: seq<Event>) returns (calls: seq<Callback>, consumed: nat, quit: bool)
    ensures calls == Trace(events)
    ensures consumed <= |events|
    ensures forall i :: 0 <= i < consumed - 1 ==> events[i].kind != QuitEvent
    ensures quit <==> consumed > 0 && events[consumed - 1].kind == QuitEvent
    ensures !quit ==> consumed == |events|
  {
    calls, consumed, quit := [], 0, false;
    while consumed < |events|
      invariant consumed <= |events|
      invariant forall i :: 0 <= i < consumed ==> events[i].kind != QuitEvent
      invariant calls + Trace(events[consumed..]) == Trace(events)
    {
      var e := events[consumed];
      if e.kind == QuitEvent {
        TraceAtQuit(events, consumed);
        assert calls == Trace(events);
        consumed := consumed + 1;
        quit := true;
        return;
      }
      TraceStep(events, consumed);
      calls := calls + Callbacks(e);
      consumed := consumed + 1;
    }
    assert events[consumed..] == [];
  }
}

=== FILE: event_emitter.dfy ===
/** The listener table of `EventEmitter` (`_event_emitter.py`).

    An emitter maps each event name to the list of callbacks registered for
    it, in registration order. A callback is registered at most once per
    name, and a name whose last callback is removed disappears from the table.
    Callbacks are compared with `==`, as Python's `in` and `list.remove` do. */
module Emitter {

  /** No element occurs twice. */
  predicate NoDuplicates<T(==)>(s: seq<T>) {
    forall i, j :: 0 <= i < j < |s| ==> s[i] != s[j]
  }

  /** The listener table: event name to callbacks in registration order. */
  type Table<C> = map<string, seq<C>>

  /** The invariant the emitter keeps: no name maps to an empty list and no
      list holds a callback twice. */
  predicate WellFormed<C(==)>(t: Table<C>) {
    forall name :: name in t ==> t[name] != [] && NoDuplicates(t[name])
  }

  /** `callback` is registered under `name`. */
  predicate Registered<C(==)>(t: Table<C>, name: string, callback: C) {
    name in t && callback in t[name]
  }

  /** The position of the first occurrence of `x` in `s`. */
  function IndexOf<T(==)>(s: seq<T>, x: T): (i: nat)
    requires x in s
    ensures i < |s| && s[i] == x
    ensures x !in s[..i]
  {
    if s[0] == x then 0 else 1 + IndexOf(s[1..], x)
  }

  /** Python's `list.remove(x)`: the list without the first occurrence of
      `x`, the other elements kept in order. */
  function RemoveFirst<T(==)>(s: seq<T>, x: T): (r: seq<T>)
    requires x in s
    ensures |r| == |s| - 1
    ensures forall k :: 0 <= k < |r| ==> r[k] == (if k < IndexOf(s, x) then s[k] else s[k + 1])
  {
    var i := IndexOf(s, x);
    s[..i] + s[i + 1..]
  }

  /** Removing an element from a list without duplicates removes every
      occurrence of it, keeps every other element, and keeps the list
      duplicate-free. */
  lemma {:induction false} RemoveFirstFromUnique<T(!new)>(s: seq<T>, x: T)
    requires x in s && NoDuplicates(s)
    ensures x !in RemoveFirst(s, x)
    ensures NoDuplicates(RemoveFirst(s, x))
    ensures forall y :: y != x ==> (y in RemoveFirst(s, x) <==> y in s)
  {
    var i := IndexOf(s, x);
    var r := RemoveFirst(s, x);
    forall y | y in s && y != x
      ensures y in r
    {
      var j :| 0 <= j < |s| && s[j] == y;
      assert j != i;
      if j < i {
        assert r[j] == y;
      } else {
        assert r[j - 1] == y;
      }
    }
  }

  /** Appending a fresh element and removing it again gives back the list. */
  lemma {:induction false} RemoveFirstAppended<T>(s: seq<T>, x: T)
    requires x !in s
    ensures RemoveFirst(s + [x], x) == s
  {
    var i := IndexOf(s + [x], x);
    assert forall k :: 0 <= k < |s| ==> (s + [x])[k] == s[k];
    assert i == |s|;
    assert (s + [x])[..i] == s;
  }

  /** The table after a successful `add_event_listener(name, callback)`. */
  function WithListener<C(==)>(t: Table<C>, name: string, callback: C): (r: Table<C>)
    requires WellFormed(t) && !Registered(t, name, callback)
    ensures WellFormed(r) && Registered(r, name, callback)
    ensures r.Keys == t.Keys + {name}
    ensures r[name] == (if name in t then t[name] else []) + [callback]
    ensures forall other :: other != name && other in t ==> r[other] == t[other]
  {
    var prior := if name in t then t[name] else [];
    var r := t[name := prior + [callback]];
    assert NoDuplicates(r[name]) by {
      forall i, j | 0 <= i < j < |r[name]|
        ensures r[name][i] != r[name][j]
      {
        if j == |prior| {
          assert r[name][i] == prior[i];
        } else {
          assert r[name][i] == prior[i] && r[name][j] == prior[j];
        }
      }
    }
    r
  }

  /** The table after a successful `remove_event_listener(name, callback)`:
      the callback is gone, and so is the name if it was its last callback. */
  function WithoutListener<C(==, !new)>(t: Table<C>, name: string, callback: C): (r: Table<C>)
    requires WellFormed(t) && Registered(t, name, callback)
    ensures WellFormed(r) && !Registered(r, name, callback)
    ensures r.Keys == if |t[name]| == 1 then t.Keys - {name} else t.Keys
    ensures forall other :: other != name && other in t ==> r[other] == t[other]
    ensures forall c :: c != callback ==> (Registered(r, name, c) <==> Registered(t, name, c))
    ensures |t[name]| > 1 ==> r[name] == RemoveFirst(t[name], callback)
  {
    RemoveFirstFromUnique(t[name], callback);
    var rest := RemoveFirst(t[name], callback);
    if |rest| == 0 then t - {name} else t[name := rest]
  }

  /** Adding a callback that was not registered and then removing it restores
      the table exactly, key set included. */
  lemma {:induction false} AddThenRemove<C(!new)>(t: Table<C>, name: string, callback: C)
    requires WellFormed(t) && !Registered(t, name, callback)
    ensures WithoutListener(WithListener(t, name, callback), name, callback) == t
  {
    var added := WithListener(t, name, callback);
    var prior := if name in t then t[name] else [];
    RemoveFirstAppended(prior, callback);
    var r := WithoutListener(added, name, callback);
    if name in t {
      assert r == added[name := prior];
    } else {
      assert r == added - {name};
    }
  }

  /** The callbacks `emit_event(name)` hands to the executor: none when the
      name has no listeners (the early return), otherwise those registered
      under the name, in registration order. */
  function Scheduled<C(==, !new)>(t: Table<C>, name: string): (r: seq<C>)
    requires WellFormed(t)
    ensures r == [] <==> name !in t
    ensures forall c :: c in r <==> Registered(t, name, c)
  {
    if name !in t then [] else t[name]
  }

  /** What `emit_event(name)` as written submits: one call per registered
      event name, whatever `name` is, because it iterates over the table
      itself rather than over `t[name]`. */
  function ScheduledAsWritten<C>(t: Table<C>, name: string): set<string> {
    if name !in t then {} else t.Keys
  }

  /** With a single callback `f` registered for "click", the emitter as
      written submits a call to the name "click" and to nothing else, while
      the intended emitter calls `f`. */
  lemma EmitAsWrittenCallsNames<C(!new)>(f: C)
    ensures var t := map["click" := [f]];
      && ScheduledAsWritten(t, "click") == {"click"}
      && Scheduled(t, "click") == [f]
  {
  }

  /** An object that emits named events to registered callbacks. */
  class EventEmitter<C(==, !new)> {
    var listeners: Table<C>

    predicate Valid()
      reads this
    {
      WellFormed(listeners)
    }

    constructor ()
      ensures Valid() && listeners == map[]
    {
      listeners := map[];
    }

    /** `add_event_listener`: appends the callback and answers true when it
        was not registered under the name; otherwise answers false and
        changes nothing. */
    method AddEventListener(name: string, callback: C) returns (added: bool)
      requires Valid()
      modifies this
      ensures Valid()
      ensures added <==> !Registered(old(listeners), name, callback)
      ensures listeners == if added then WithListener(old(listeners), name, callback) else old(listeners)
    {
      if name !in listeners {
        listeners := listeners[name := []];
      }
      if callback !in listeners[name] {
        listeners := listeners[name := listeners[name] + [callback]];
        return true;
      }
      return false;
    }

    /** `remove_event_listener`: answers true exactly when the callback was
        registered under the name, and afterwards it is not. */
    method RemoveEventListener(name: string, callback: C) returns (removed: bool)
      requires Valid()
      modifies this
      ensures Valid()
      ensures removed <==> Registered(old(listeners), name, callback)
      ensures !Registered(listeners, name, callback)
      ensures listeners == if removed then WithoutListener(old(listeners), name, callback) else old(listeners)
    {
      if name in listeners {
        if callback !in listeners[name] {
          return false;
        }
        listeners := listeners[name := RemoveFirst(listeners[name], callback)];
        if |listeners[name]| <= 0 {
          listeners := listeners - {name};
        }
        return true;
      }
      return false;
    }

    /** The guard of `emit_event` and the listeners it would run; emitting
        changes nothing in the table. */
    method EmitEvent(name: string) returns (scheduled: seq<C>)
      requires Valid()
      ensures scheduled == Scheduled(listeners, name)
    {
      if name !in listeners {
        return [];
      }
      scheduled := listeners[name];
    }
  }
}

=== FILE: event_names.dfy ===
/** `convert_event_name`: CamelCase event names to snake_case.

    The conversion runs two regular-expression substitutions and then
    lowercases: first `(.)([A-Z][a-z]+)` becomes `\1_\2` (an underscore before
    every capitalised word that follows some character), then
    `([a-z0-9])([A-Z])` becomes `\1_\2` (an underscore between a lowercase
    letter or digit and a following capital). `_event_thread.py` and
    `_thread.py` hold the same function; one definition models both.
    Each substitution scans left to right and resumes after a match, as
    Python's `re.sub` does; the character classes are ASCII ranges. */
module EventNames {

  predicate IsUpper(c: char) {
    'A' <= c <= 'Z'
  }

  predicate IsLower(c: char) {
    'a' <= c <= 'z'
  }

  predicate IsDigit(c: char) {
    '0' <= c <= '9'
  }

  /** No ASCII capital letter occurs in `s`. */
  predicate NoUpper(s: string) {
    forall i :: 0 <= i < |s| ==> !IsUpper(s[i])
  }

  /** The length of the run of lowercase letters that starts `s` (what the
      greedy `[a-z]+` consumes). */
  function LowerRun(s: string): (n: nat)
    ensures n <= |s|
    ensures forall i :: 0 <= i < n ==> IsLower(s[i])
    ensures n < |s| ==> !IsLower(s[n])
  {
    if s != [] && IsLower(s[0]) then 1 + LowerRun(s[1..]) else 0
  }

  /** A capital becomes the lowercase letter at the same place in the
      alphabet; any other character is kept. */
  function LowerChar(c: char): (d: char)
    ensures !IsUpper(d)
    ensures IsUpper(c) ==> IsLower(d) && d as int - 'a' as int == c as int - 'A' as int
    ensures !IsUpper(c) ==> d == c
  {
    if IsUpper(c) then (c as int - 'A' as int + 'a' as int) as char else c
  }

  /** `str.lower` on ASCII letters. */
  function Lower(s: string): (r: string)
    ensures |r| == |s| && NoUpper(r)
    ensures forall i :: 0 <= i < |s| ==> r[i] == LowerChar(s[i])
  {
    seq(|s|, i requires 0 <= i < |s| => LowerChar(s[i]))
  }

  /** `r` is `s` with zero or more underscores inserted. */
  predicate Inserted(r: string, s: string)
    decreases |r|
  {
    if r == [] then s == []
    else (s != [] && r[0] == s[0] && Inserted(r[1..], s[1..])) || (r[0] == '_' && Inserted(r[1..], s))
  }

  lemma {:induction false} InsertedRefl(s: string)
    ensures Inserted(s, s)
    decreases |s|
  {
    if s != [] {
      InsertedRefl(s[1..]);
    }
  }

  /** A common prefix keeps the relation. */
  lemma {:induction false} InsertedPrefix(p: string, r: string, s: string)
    requires Inserted(r, s)
    ensures Inserted(p + r, p + s)
    decreases |p|
  {
    if p != [] {
      InsertedPrefix(p[1..], r, s);
      assert (p + r)[0] == p[0] == (p + s)[0];
      assert (p + r)[1..] == p[1..] + r;
      assert (p + s)[1..] == p[1..] + s;
    } else {
      assert p + r == r && p + s == s;
    }
  }

  lemma {:induction false} InsertedTrans(a: string, b: string, c: string)
    requires Inserted(a, b) && Inserted(b, c)
    ensures Inserted(a, c)
    decreases |a|
  {
    if a != [] {
      if b != [] && a[0] == b[0] && Inserted(a[1..], b[1..]) {
        if c != [] && b[0] == c[0] && Inserted(b[1..], c[1..]) {
          InsertedTrans(a[1..], b[1..], c[1..]);
        } else {
          InsertedTrans(a[1..], b[1..], c);
        }
      } else {
        InsertedTrans(a[1..], b, c);
      }
    }
  }

  lemma {:induction false} InsertedLower(r: string, s: string)
    requires Inserted(r, s)
    ensures Inserted(Lower(r), Lower(s))
    decreases |r|
  {
    if r != [] {
      assert Lower(r)[1..] == Lower(r[1..]);
      if s != [] && r[0] == s[0] && Inserted(r[1..], s[1..]) {
        InsertedLower(r[1..], s[1..]);
        assert Lower(s)[1..] == Lower(s[1..]);
      } else {
        InsertedLower(r[1..], s);
      }
    }
  }

  /** Keeping the first character keeps the relation. */
  lemma InsertedCons(s: string, rest: string)
    requires s != [] && Inserted(rest, s[1..])
    ensures Inserted([s[0]] + rest, s)
  {
    assert ([s[0]] + rest)[1..] == rest;
  }

  /** An underscore in front keeps the relation. */
  lemma InsertedUnderscore(r: string, s: string)
    requires Inserted(r, s)
    ensures Inserted(['_'] + r, s)
  {
    assert (['_'] + r)[1..] == r;
  }

  /** Rewriting the start `s[..end]` as `s[0] _ s[1..end]` only inserts an
      underscore. */
  lemma InsertedSplit(s: string, end: nat, rest: string)
    requires 1 <= end <= |s| && Inserted(rest, s[end..])
    ensures Inserted([s[0], '_'] + s[1..end] + rest, s)
  {
    InsertedPrefix(s[1..end], rest, s[end..]);
    assert s[1..end] + s[end..] == s[1..];
    InsertedUnderscore(s[1..end] + rest, s[1..]);
    InsertedCons(s, ['_'] + (s[1..end] + rest));
    assert [s[0]] + (['_'] + (s[1..end] + rest)) == [s[0], '_'] + s[1..end] + rest;
  }

  /** Every capitalised word (a capital followed by a lowercase letter) that
      is not at the start follows an underscore, a newline or a lowercase
      letter: the first pattern finds no further word to separate. */
  predicate WordsSplit(r: string) {
    forall j :: 1 <= j < |r| - 1 && IsUpper(r[j]) && IsLower(r[j + 1]) ==>
      r[j - 1] == '_' || r[j - 1] == '\n' || IsLower(r[j - 1])
  }

  /** A character in front of a string whose words are split keeps them split
      unless it meets a capitalised word without being one of those three. */
  lemma WordsSplitCons(c: char, rest: string)
    requires WordsSplit(rest)
    requires |rest| >= 2 && IsUpper(rest[0]) && IsLower(rest[1]) ==> c == '_' || c == '\n' || IsLower(c)
    ensures WordsSplit([c] + rest)
  {
    var t := [c] + rest;
    forall j | 2 <= j < |t| - 1 && IsUpper(t[j]) && IsLower(t[j + 1])
      ensures t[j - 1] == '_' || t[j - 1] == '\n' || IsLower(t[j - 1])
    {
      assert t[j - 1] == rest[j - 2] && t[j] == rest[j - 1] && t[j + 1] == rest[j];
    }
  }

  /** A matched word `s[1..end]` written after `s[0] _` leaves the words of
      the whole result split. */
  lemma WordsSplitMatch(s: string, end: nat, rest: string)
    requires 3 <= end <= |s| && IsUpper(s[1])
    requires forall k :: 2 <= k < end ==> IsLower(s[k])
    requires WordsSplit(rest)
    ensures WordsSplit([s[0], '_'] + s[1..end] + rest)
  {
    var t := [s[0], '_'] + s[1..end] + rest;
    forall j | 1 <= j < |t| - 1 && IsUpper(t[j]) && IsLower(t[j + 1])
      ensures t[j - 1] == '_' || t[j - 1] == '\n' || IsLower(t[j - 1])
    {
      if j <= end {
        assert t[j] == s[j - 1];
        assert j == 2;
      } else if j == end + 1 {
        assert t[j - 1] == s[end - 1];
      } else {
        assert t[j - 1] == rest[j - end - 2] && t[j] == rest[j - end - 1] && t[j + 1] == rest[j - end];
      }
    }
  }

  /** The first substitution, `(.)([A-Z][a-z]+)` to `\1_\2`; `.` matches any
      character but a newline. It only inserts underscores;
      `SplitWordsSplitsWords` states what it separates. */
  function SplitWords(s: string): (r: string)
    ensures Inserted(r, s)
    decreases |s|
  {
    if |s| >= 3 && s[0] != '\n' && IsUpper(s[1]) && IsLower(s[2]) then
      var end := 2 + LowerRun(s[2..]);
      var rest := SplitWords(s[end..]);
      InsertedSplit(s, end, rest);
      [s[0], '_'] + s[1..end] + rest
    else if s == [] then []
    else
      var rest := SplitWords(s[1..]);
      InsertedCons(s, rest);
      [s[0]] + rest
  }

  /** The first pass keeps the first character, puts an underscore or the
      second character second, and changes nothing shorter than a match. */
  lemma SplitWordsHead(s: string)
    ensures |s| <= |SplitWords(s)|
    ensures s != [] ==> SplitWords(s)[0] == s[0]
    ensures |s| >= 2 ==> SplitWords(s)[1] == '_' || SplitWords(s)[1] == s[1]
    ensures |s| < 3 ==> SplitWords(s) == s
  {
    if |s| >= 3 && s[0] != '\n' && IsUpper(s[1]) && IsLower(s[2]) {
    } else if |s| == 2 {
      assert SplitWords(s[1..]) == s[1..];
      assert [s[0]] + s[1..] == s;
    } else if |s| >= 3 {
      SplitWordsHead(s[1..]);
    }
  }

  /** After the first pass no capitalised word follows a character other
      than an underscore, a newline or a lowercase letter: every word the
      pattern can reach has been separated. */
  lemma {:induction false} SplitWordsSplitsWords(s: string)
    ensures WordsSplit(SplitWords(s))
    decreases |s|
  {
    if |s| >= 3 && s[0] != '\n' && IsUpper(s[1]) && IsLower(s[2]) {
      var end := 2 + LowerRun(s[2..]);
      SplitWordsSplitsWords(s[end..]);
      WordsSplitMatch(s, end, SplitWords(s[end..]));
    } else if s != [] {
      SplitWordsSplitsWords(s[1..]);
      SplitWordsHead(s[1..]);
      WordsSplitCons(s[0], SplitWords(s[1..]));
    }
  }

  /** No lowercase letter or digit is directly followed by a capital: the
      second pattern finds nothing more to separate. */
  predicate Separated(s: string) {
    forall i :: 0 <= i < |s| - 1 ==> !((IsLower(s[i]) || IsDigit(s[i])) && IsUpper(s[i + 1]))
  }

  /** A character in front of a separated string keeps it separated unless
      it is a lowercase letter or digit meeting a capital. */
  lemma SeparatedCons(c: char, rest: string)
    requires Separated(rest)
    requires rest != [] ==> !((IsLower(c) || IsDigit(c)) && IsUpper(rest[0]))
    ensures Separated([c] + rest)
  {
    var t := [c] + rest;
    forall i | 1 <= i < |t| - 1
      ensures !((IsLower(t[i]) || IsDigit(t[i])) && IsUpper(t[i + 1]))
    {
      assert t[i] == rest[i - 1] && t[i + 1] == rest[i];
    }
  }

  /** The second substitution, `([a-z0-9])([A-Z])` to `\1_\2`. It only
      inserts underscores, keeps the first character, and leaves every
      lowercase letter or digit that met a capital separated from it. */
  function SplitCamel(s: string): (r: string)
    ensures Inserted(r, s)
    ensures Separated(r)
    ensures s != [] ==> r != [] && r[0] == s[0]
    decreases |s|
  {
    if |s| >= 2 && (IsLower(s[0]) || IsDigit(s[0])) && IsUpper(s[1]) then
      var rest := SplitCamel(s[2..]);
      InsertedSplit(s, 2, rest);
      SeparatedCons(s[1], rest);
      SeparatedCons('_', [s[1]] + rest);
      SeparatedCons(s[0], ['_'] + ([s[1]] + rest));
      assert [s[0]] + (['_'] + ([s[1]] + rest)) == [s[0], '_'] + s[1..2] + rest;
      [s[0], '_'] + s[1..2] + rest
    else if s == [] then []
    else
      var rest := SplitCamel(s[1..]);
      InsertedCons(s, rest);
      assert rest != [] ==> |s| >= 2 && rest[0] == s[1];
      SeparatedCons(s[0], rest);
      [s[0]] + rest
  }

  /** Neither substitution matches a name without capitals. */
  lemma {:induction false} NoUpperUnchanged(s: string)
    requires NoUpper(s)
    ensures SplitWords(s) == s && SplitCamel(s) == s && Lower(s) == s
    decreases |s|
  {
    if s != [] {
      NoUpperUnchanged(s[1..]);
      assert [s[0]] + s[1..] == s;
    }
  }

  /** `convert_event_name`: the name in snake_case. The result holds no
      capital letter and is the lowercased name with only underscores
      inserted; before lowering, the name with those underscores had every
      lowercase letter or digit separated from a following capital.
      `ConvertEventNameSplitsWords` adds what the first pass separates. */
  function ConvertEventName(name: string): (r: string)
    ensures NoUpper(r)
    ensures Inserted(r, Lower(name))
    ensures exists c :: Inserted(c, name) && Separated(c) && r == Lower(c)
  {
    var first := SplitWords(name);
    var second := SplitCamel(first);
    InsertedTrans(second, first, name);
    InsertedLower(second, name);
    assert Inserted(second, name) && Separated(second);
    Lower(second)
  }

  /** The underscores of `convert_event_name` come in two passes: the first
      leaves every capitalised word after another character separated
      (`WordsSplit`), the second then leaves every lowercase letter or digit
      separated from a following capital (`Separated`). */
  lemma ConvertEventNameSplitsWords(name: string)
    ensures exists w, c :: Inserted(w, name) && WordsSplit(w) && Inserted(c, w) && Separated(c)
                           && ConvertEventName(name) == Lower(c)
  {
    var w := SplitWords(name);
    SplitWordsSplitsWords(name);
    var c := SplitCamel(w);
    assert Inserted(w, name) && WordsSplit(w) && Inserted(c, w) && Separated(c);
  }

  /** A name without capitals comes back unchanged: both patterns need a capital. */
  lemma {:induction false} ConvertEventNameKeepsSnakeCase(name: string)
    requires NoUpper(name)
    ensures ConvertEventName(name) == name
  {
    NoUpperUnchanged(name);
  }

  /** Converting twice gives what converting once gives. */
  lemma {:induction false} ConvertEventNameIdempotent(name: string)
    ensures ConvertEventName(ConvertEventName(name)) == ConvertEventName(name)
  {
    ConvertEventNameKeepsSnakeCase(ConvertEventName(name));
  }

  /** A string of lowercase letters is one greedy run. */
  lemma {:induction false} LowerRunAll(s: string)
    requires forall k :: 0 <= k < |s| ==> IsLower(s[k])
    ensures LowerRun(s) == |s|
    decreases |s|
  {
    if s != [] {
      LowerRunAll(s[1..]);
    }
  }

  /** The first pass on a character, a capital and a run of lowercase
      letters up to the end separates that one word. */
  lemma SplitWordsWordToEnd(s: string)
    requires |s| >= 3 && s[0] != '\n' && IsUpper(s[1]) && IsLower(s[2])
    requires LowerRun(s[2..]) == |s| - 2
    ensures SplitWords(s) == [s[0], '_'] + s[1..]
  {
    assert s[|s|..] == [] && s[1..|s|] == s[1..];
  }

  /** Lowercase letters from the third character on form the tail's run. */
  lemma LowerTail(s: string)
    requires |s| >= 2 && forall k :: 2 <= k < |s| ==> IsLower(s[k])
    ensures LowerRun(s[2..]) == |s| - 2
  {
    forall k | 0 <= k < |s[2..]| ensures IsLower(s[2..][k]) {
      assert s[2..][k] == s[k + 2];
    }
    LowerRunAll(s[2..]);
  }

  /** Where no word starts at the second character, the first pass keeps the
      first character and goes on with the rest. */
  lemma SplitWordsNoWordAtHead(s: string)
    requires s != [] && !(|s| >= 3 && s[0] != '\n' && IsUpper(s[1]) && IsLower(s[2]))
    ensures SplitWords(s) == [s[0]] + SplitWords(s[1..])
  {
  }

  /** The second pass changes nothing in a string it would find nothing to
      separate in; in particular it changes nothing in its own result. */
  lemma {:induction false} SplitCamelSeparated(s: string)
    requires Separated(s)
    ensures SplitCamel(s) == s
    decreases |s|
  {
    if s != [] {
      assert Separated(s[1..]) by {
        forall i | 0 <= i < |s[1..]| - 1
          ensures !((IsLower(s[1..][i]) || IsDigit(s[1..][i])) && IsUpper(s[1..][i + 1]))
        {
          assert s[1..][i] == s[i + 1] && s[1..][i + 1] == s[i + 2];
        }
      }
      SplitCamelSeparated(s[1..]);
      assert [s[0]] + s[1..] == s;
    }
  }

  /** All characters are capitals. */
  predicate AllUpper(s: string) {
    forall k :: 0 <= k < |s| ==> IsUpper(s[k])
  }

  /** A capital followed by one or more lowercase letters. */
  predicate CapitalisedWord(w: string) {
    |w| >= 2 && IsUpper(w[0]) && forall k :: 1 <= k < |w| ==> IsLower(w[k])
  }

  /** No capitalised word starts in `a` after its first character. */
  predicate NoWordStart(a: string) {
    forall j :: 1 <= j < |a| - 1 ==> !(IsUpper(a[j]) && IsLower(a[j + 1]))
  }

  /** The first pass on a prefix in which no word starts, followed by a
      capitalised word, puts one underscore, before the word. */
  lemma {:induction false} SplitWordsBeforeWord(a: string, w: string)
    requires a != [] && a[|a| - 1] != '\n' && NoWordStart(a) && CapitalisedWord(w)
    ensures SplitWords(a + w) == a + ['_'] + w
    decreases |a|
  {
    if |a| == 1 {
      SplitWordsOneBeforeWord(a[0], w);
      assert [a[0]] == a;
    } else {
      SplitWordsBeforeWordStep(a, w);
      NoWordStartTail(a);
      SplitWordsBeforeWord(a[1..], w);
      UnderscoreAfterTail(a, w);
    }
  }

  /** Putting the first character back in front of the rest. */
  lemma UnderscoreAfterTail(a: string, w: string)
    requires a != []
    ensures [a[0]] + (a[1..] + ['_'] + w) == a + ['_'] + w
  {
    assert [a[0]] + a[1..] == a;
  }

  /** A single character other than a newline before a capitalised word
      gets the underscore after it. */
  lemma SplitWordsOneBeforeWord(c: char, w: string)
    requires c != '\n' && CapitalisedWord(w)
    ensures SplitWords([c] + w) == [c, '_'] + w
  {
    var s := [c] + w;
    assert forall k :: 2 <= k < |s| ==> IsLower(s[k]) by {
      forall k | 2 <= k < |s| ensures IsLower(s[k]) {
        assert s[k] == w[k - 1];
      }
    }
    LowerTail(s);
    SplitWordsWordToEnd(s);
    assert s[1..] == w;
  }

  /** Before the last character of such a prefix no word starts, so the
      first character is kept as it is. */
  lemma SplitWordsBeforeWordStep(a: string, w: string)
    requires |a| >= 2 && NoWordStart(a) && CapitalisedWord(w)
    ensures SplitWords(a + w) == [a[0]] + SplitWords(a[1..] + w)
  {
    NoWordAtSecond(a, w);
    SplitWordsNoWordAtHead(a + w);
    assert (a + w)[1..] == a[1..] + w;
  }

  /** In such a prefix of two or more characters, followed by a capitalised
      word, no word starts at the second character. */
  lemma NoWordAtSecond(a: string, w: string)
    requires |a| >= 2 && NoWordStart(a) && CapitalisedWord(w)
    ensures !(IsUpper((a + w)[1]) && IsLower((a + w)[2]))
  {
    if |a| > 2 {
      assert (a + w)[1] == a[1] && (a + w)[2] == a[2];
    } else {
      assert (a + w)[2] == w[0];
    }
  }

  /** What follows the first character of such a prefix is again one. */
  lemma NoWordStartTail(a: string)
    requires a != [] && NoWordStart(a)
    ensures NoWordStart(a[1..])
  {
    forall j | 1 <= j < |a[1..]| - 1
      ensures !(IsUpper(a[1..][j]) && IsLower(a[1..][j + 1]))
    {
      assert a[1..][j] == a[j + 1] && a[1..][j + 1] == a[j + 2];
    }
  }

  /** The second pass finds nothing in a separated prefix, an underscore and
      a capitalised word. */
  lemma SplitCamelBeforeWord(a: string, w: string)
    requires Separated(a) && CapitalisedWord(w)
    ensures SplitCamel(a + ['_'] + w) == a + ['_'] + w
  {
    var s := a + ['_'] + w;
    forall i | 0 <= i < |s| - 1
      ensures !((IsLower(s[i]) || IsDigit(s[i])) && IsUpper(s[i + 1]))
    {
      if i < |a| - 1 {
        assert s[i] == a[i] && s[i + 1] == a[i + 1];
      } else if i > |a| {
        assert s[i + 1] == w[i - |a|];
      }
    }
    SplitCamelSeparated(s);
  }

  /** Lowering works character by character, so it distributes over
      concatenation. */
  lemma LowerAppend(x: string, y: string)
    ensures Lower(x + y) == Lower(x) + Lower(y)
  {
    var l := Lower(x + y);
    forall k | 0 <= k < |l|
      ensures l[k] == (Lower(x) + Lower(y))[k]
    {
      if k >= |x| {
        assert (x + y)[k] == y[k - |x|];
      }
    }
  }

  /** `convert_event_name` on a prefix in which no word starts and no
      lowercase letter or digit meets a capital, followed by a capitalised
      word: the two are lowercased and joined by one underscore ("keyUp" to
      "key_up"). */
  lemma ConvertEventNameBeforeWord(a: string, w: string)
    requires a != [] && a[|a| - 1] != '\n' && NoWordStart(a) && Separated(a) && CapitalisedWord(w)
    ensures ConvertEventName(a + w) == Lower(a) + "_" + Lower(w)
  {
    SplitWordsBeforeWord(a, w);
    SplitCamelBeforeWord(a, w);
    assert ConvertEventName(a + w) == Lower(a + ['_'] + w);
    LowerAppend(a + ['_'], w);
    LowerAppend(a, ['_']);
    assert Lower(['_']) == "_";
  }

  /** `convert_event_name` on an acronym followed by a capitalised word:
      only the word is separated, as in "HTTPServer" to "http_server". */
  lemma ConvertEventNameAcronym(a: string, w: string)
    requires a != [] && AllUpper(a) && CapitalisedWord(w)
    ensures ConvertEventName(a + w) == Lower(a) + "_" + Lower(w)
  {
    assert a[|a| - 1] != '\n';
    ConvertEventNameBeforeWord(a, w);
  }

  /** The first pass on "keyUp" separates the capitalised word "Up". */
  lemma SplitWordsKeyUp()
    ensures SplitWords("keyUp") == "key_Up"
  {
    assert LowerRun("p") == 1;
    assert SplitWords("p") == "p";
    assert SplitWords("yUp") == "y_Up";
    assert SplitWords("eyUp") == "ey_Up";
  }

  /** The second pass finds nothing more in "key_Up". */
  lemma SplitCamelKeyUp()
    ensures SplitCamel("key_Up") == "key_Up"
  {
    assert SplitCamel("p") == "p";
    assert SplitCamel("Up") == "Up";
    assert SplitCamel("_Up") == "_Up";
    assert SplitCamel("y_Up") == "y_Up";
    assert SplitCamel("ey_Up") == "ey_Up";
  }

  /** A name as the event thread converts it. */
  lemma ConvertEventNameExample()
    ensures ConvertEventName("keyUp") == "key_up"
  {
    SplitWordsKeyUp();
    SplitCamelKeyUp();
    var lowered := Lower("key_Up");
    assert lowered == "key_up" by {
      assert |lowered| == 6;
      assert lowered[4] == LowerChar('U') == 'u';
    }
  }
}

=== FILE: event_thread.dfy ===
/** The task queue of the event thread in `_event_thread.py`, and the choice
    of a synchronous or asynchronous delegate.

    Other threads put tasks on a module-level FIFO queue; when the event
    thread receives the command event it drains the queue, dispatching each
    task in turn, with the module-level flag `_event_thread_queue_running`
    raised for the duration. The model drains the queue as it stands: tasks
    put by other threads while the drain runs are outside it. */
module EventThreadQueue {
  import opened Wrappers
  import opened Tasks

  /** The module's queue and its running flag. `log` records every task
      dispatched by a drain, in order. */
  class EventQueue<V, X> {
    var queue: seq<EventTask<V, X>>
    var running: bool
    ghost var log: seq<EventTask<V, X>>

    constructor ()
      ensures queue == [] && !running && log == []
    {
      queue, running, log := [], false, [];
    }

    /** `_get_task()`: the task at the head of the queue, removed from it, or
        `None` for an empty queue. */
    method GetTask() returns (task: Option<EventTask<V, X>>)
      modifies this`queue
      ensures old(queue) == [] ==> task.None? && queue == []
      ensures old(queue) != [] ==> task == Some(old(queue)[0]) && queue == old(queue)[1..]
    {
      if queue == [] {
        return None;
      }
      task := Some(queue[0]);
      queue := queue[1..];
    }

    /** `_drain_queue()`: dispatches every queued task, oldest first, until
        the queue is empty; the running flag is down again on exit. */
    method DrainQueue()
      requires forall t :: t in queue ==> t.Valid()
      modifies this, set t | t in queue
      ensures queue == [] && !running
      ensures log == old(log) + old(queue)
      ensures forall t :: t in old(queue) ==> t.Valid() && t.Done()
      ensures forall t :: t in old(queue) ==> old(t.State()).Consistent() && t.State() == Dispatched(old(t.State()), t.call)
    {
      running := true;
      ghost var popped: seq<EventTask<V, X>> := [];
      while true
        invariant old(queue) == popped + queue
        invariant log == old(log) + popped
        invariant forall t :: t in old(queue) ==> t.Valid()
        invariant forall t :: t in popped ==> t.Done()
        invariant forall t :: t in old(queue) ==> old(t.State()).Consistent()
        invariant forall t :: t in old(queue) ==> t.State() == old(t.State()) || t.State() == Dispatched(old(t.State()), t.call)
        invariant forall t :: t in popped ==> t in old(queue) && t.State() == Dispatched(old(t.State()), t.call)
        decreases |queue|
      {
        var task := GetTask();
        if task.None? {
          break;
        }
        var t := task.value;
        assert t in old(queue);
        t.Dispatch();
        popped := popped + [t];
        log := log + [t];
      }
      running := false;
    }
  }

  /** The `async_loop` argument: `True`, `False`, `None` or an explicit loop. */
  datatype LoopArg<L> = AsyncOn | AsyncOff | AsyncDefault | OnLoop(loop: L)

  /** The delegate chosen: `delegate_sync_call`, or `delegate_async_call`
      bound to a loop. */
  datatype Delegate<L> = SyncCall | AsyncCall(loop: L)

  /** `get_delegate_from_args(async_loop)`. `running` is the loop
      `asyncio.get_running_loop()` reports, if any, and `created` the loop
      `asyncio.new_event_loop()` would make. The call is synchronous exactly
      when asked to be or, by default, when no loop is running; an
      asynchronous call runs on the loop given, else on the running loop,
      else on a new one. */
  function DelegateFor<L>(arg: LoopArg<L>, running: Option<L>, created: L): (d: Delegate<L>)
    ensures d.SyncCall? <==> arg.AsyncOff? || (arg.AsyncDefault? && running.None?)
    ensures d.AsyncCall? && arg.OnLoop? ==> d.loop == arg.loop
    ensures d.AsyncCall? && !arg.OnLoop? ==> (running.Some? ==> d.loop == running.value)
    ensures d.AsyncCall? && running.None? && !arg.OnLoop? ==> d.loop == created
  {
    var loop :=
      match arg
      case AsyncOn => if running.Some? then running else Some(created)
      case AsyncOff => None
      case AsyncDefault => running
      case OnLoop(l) => Some(l);
    if loop.None? then SyncCall else AsyncCall(loop.value)
  }
}

=== FILE: geometry.dfy ===
/** Integer rectangles (`Rectangle` in `_geometry.py`).

    A rectangle stores the position of its top-left pixel (x, y) and its size
    (width, height). The right and bottom edges are the last pixel column and
    row covered, so `right == x + width - 1` and `bottom == y + height - 1`.
    The constructor accepts any mix of x, y, width, height, left, top, right and
    bottom that determines the rectangle, and rejects missing, conflicting or
    non-positive arguments. */
module Geometry {
  import opened Wrappers

  /** The argument an error names. */
  datatype Param = X | Y | Width | Height | Top | Right | Bottom | Left

  /** The exceptions raised by the rectangle: `Missing` and `Conflicting` are
      the constructor's TypeErrors, `NonPositive` is the ValueError raised for a
      width or height that is zero or negative. */
  datatype GeometryError =
    | Missing(param: Param)
    | Conflicting(param: Param)
    | NonPositive(param: Param)

  /** The constructor's arguments; `None` is an omitted argument. */
  datatype RectArgs = RectArgs(
    x: Option<int>, y: Option<int>, width: Option<int>, height: Option<int>,
    top: Option<int>, right: Option<int>, bottom: Option<int>, left: Option<int>)

  /** The value a rectangle holds. */
  datatype Rect = Rect(x: int, y: int, width: int, height: int) {

    /** Every rectangle the class lets exist has a positive size. */
    predicate Valid() {
      width > 0 && height > 0
    }

    /** The last column covered: columns x to the right edge are `width`
        many, and a valid rectangle's right edge is not left of x. */
    function Right(): (r: int)
      ensures r - x + 1 == width
      ensures Valid() ==> x <= r
    {
      x + width - 1
    }

    /** The last row covered: rows y to the bottom edge are `height` many,
        and a valid rectangle's bottom edge is not above y. */
    function Bottom(): (r: int)
      ensures r - y + 1 == height
      ensures Valid() ==> y <= r
    {
      y + height - 1
    }

    /** The rectangle with its right edge moved to `value`, size kept. */
    function WithRight(value: int): (r: Rect)
      ensures r.Right() == value
      ensures r.y == y && r.width == width && r.height == height
    {
      Rect(value - width + 1, y, width, height)
    }

    /** The rectangle with its bottom edge moved to `value`, size kept. */
    function WithBottom(value: int): (r: Rect)
      ensures r.Bottom() == value
      ensures r.x == x && r.width == width && r.height == height
    {
      Rect(x, value - height + 1, width, height)
    }

    /** The rectangle translated by (dx, dy): every edge moves, the size does not. */
    function MovedBy(dx: int, dy: int): (r: Rect)
      ensures r.x == x + dx && r.y == y + dy
      ensures r.Right() == Right() + dx && r.Bottom() == Bottom() + dy
      ensures r.width == width && r.height == height
    {
      Rect(x + dx, y + dy, width, height)
    }

    /** The rectangle given a new size, or the ValueError for a non-positive
        size; the width is checked before the height. */
    function ResizedTo(newWidth: int, newHeight: int): (r: Result<Rect, GeometryError>)
      ensures r.Success? <==> newWidth > 0 && newHeight > 0
      ensures r.Success? ==> r.value.Valid()
      ensures r.Success? ==> r.value.x == x && r.value.y == y
      ensures r.Success? ==> r.value.Right() == x + newWidth - 1 && r.value.Bottom() == y + newHeight - 1
      ensures r.Failure? ==> r.error == NonPositive(if newWidth <= 0 then Width else Height)
    {
      if newWidth <= 0 then Failure(NonPositive(Width))
      else if newHeight <= 0 then Failure(NonPositive(Height))
      else Success(Rect(x, y, newWidth, newHeight))
    }
  }

  /** Every argument that was supplied describes `b`. */
  predicate Agrees(a: RectArgs, b: Rect) {
    && (a.x.Some? ==> a.x.value == b.x)
    && (a.y.Some? ==> a.y.value == b.y)
    && (a.width.Some? ==> a.width.value == b.width)
    && (a.height.Some? ==> a.height.value == b.height)
    && (a.left.Some? ==> a.left.value == b.x)
    && (a.top.Some? ==> a.top.value == b.y)
    && (a.right.Some? ==> a.right.value == b.Right())
    && (a.bottom.Some? ==> a.bottom.value == b.Bottom())
  }

  /** The horizontal arguments name a position and a width. */
  predicate HorizontalDetermined(a: RectArgs) {
    && (a.x.Some? || a.left.Some? || (a.right.Some? && a.width.Some?))
    && (a.width.Some? || a.right.Some?)
  }

  /** The vertical arguments name a position and a height. */
  predicate VerticalDetermined(a: RectArgs) {
    && (a.y.Some? || a.top.Some? || (a.bottom.Some? && a.height.Some?))
    && (a.height.Some? || a.bottom.Some?)
  }

  /** The arguments are enough to name a rectangle. */
  predicate Determined(a: RectArgs) {
    HorizontalDetermined(a) && VerticalDetermined(a)
  }

  /** The position and size the arguments name, before any consistency or
      size check: x from x, else left, else right and width; y likewise from
      top or bottom and height; a missing width from right and x, a missing
      height from bottom and y. */
  function Derive(a: RectArgs): (r: Result<Rect, GeometryError>)
    ensures r.Success? <==> Determined(a)
    ensures r.Failure? ==> r.error.Missing?
    ensures r.Success? && a.x.Some? ==> r.value.x == a.x.value
    ensures r.Success? && a.y.Some? ==> r.value.y == a.y.value
    ensures r.Success? && a.width.Some? ==> r.value.width == a.width.value
    ensures r.Success? && a.height.Some? ==> r.value.height == a.height.value
  {
    var x :=
      if a.x.Some? then a.x
      else if a.left.Some? then a.left
      else if a.right.Some? && a.width.Some? then Some(a.right.value - a.width.value + 1)
      else None;
    var y :=
      if a.y.Some? then a.y
      else if a.top.Some? then a.top
      else if a.bottom.Some? && a.height.Some? then Some(a.bottom.value - a.height.value + 1)
      else None;
    if x.None? then Failure(Missing(X))
    else if y.None? then Failure(Missing(Y))
    else if a.width.None? && a.right.None? then Failure(Missing(Width))
    else if a.height.None? && a.bottom.None? then Failure(Missing(Height))
    else
      var width := if a.width.Some? then a.width.value else a.right.value - x.value + 1;
      var height := if a.height.Some? then a.height.value else a.bottom.value - y.value + 1;
      Success(Rect(x.value, y.value, width, height))
  }

  /** The edge arguments that were supplied describe `d`. */
  predicate EdgesAgree(a: RectArgs, d: Rect) {
    && (a.right.Some? ==> a.right.value == d.Right())
    && (a.left.Some? ==> a.left.value == d.x)
    && (a.bottom.Some? ==> a.bottom.value == d.Bottom())
    && (a.top.Some? ==> a.top.value == d.y)
  }

  /** The constructor's checks of a derived rectangle `d`, in the constructor's
      order: right, left, bottom and top against the derived values, then the
      width and the height. The top and bottom checks compare against
      `verticalRef`, which is `d.y` as intended and `d.x` as written. As
      intended, `d` passes exactly when the edge arguments describe it and
      its size is positive. */
  function Check(a: RectArgs, d: Rect, verticalRef: int): (r: Result<Rect, GeometryError>)
    ensures r.Success? ==> r.value == d && d.Valid()
    ensures r.Failure? ==> r.error.Conflicting? || r.error.NonPositive?
    ensures verticalRef == d.y ==> (r.Success? <==> EdgesAgree(a, d) && d.Valid())
    ensures verticalRef == d.y && r.Failure? && r.error.NonPositive? ==> EdgesAgree(a, d)
  {
    if a.right.Some? && a.right.value - d.width + 1 != d.x then Failure(Conflicting(Right))
    else if a.left.Some? && a.left.value != d.x then Failure(Conflicting(Left))
    else if a.bottom.Some? && a.bottom.value - d.height + 1 != verticalRef then Failure(Conflicting(Bottom))
    else if a.top.Some? && a.top.value != verticalRef then Failure(Conflicting(Top))
    else if d.width <= 0 then Failure(NonPositive(Width))
    else if d.height <= 0 then Failure(NonPositive(Height))
    else Success(d)
  }

  /** `Rectangle(...)`: the rectangle the arguments name, or the error raised.
      A result always has a positive size and agrees with every supplied
      argument; missing arguments are a `Missing` error. */
  function Resolve(a: RectArgs): (r: Result<Rect, GeometryError>)
    ensures r.Success? ==> r.value.Valid() && Agrees(a, r.value)
    ensures !Determined(a) <==> r.Failure? && r.error.Missing?
    ensures r.Failure? && r.error.NonPositive? ==> Agrees(a, Derive(a).value)
  {
    match Derive(a)
    case Failure(e) => Failure(e)
    case Success(d) => Check(a, d, d.y)
  }

  /** `Rectangle(...)` as the source writes it: the bottom and top checks
      compare against x instead of y. */
  function ResolveAsWritten(a: RectArgs): Result<Rect, GeometryError> {
    match Derive(a)
    case Failure(e) => Failure(e)
    case Success(d) => Check(a, d, d.x)
  }

  /** When the arguments are enough to name a rectangle, the only rectangle
      they describe is the one derived from them. */
  lemma {:induction false} DeriveUnique(a: RectArgs, b: Rect)
    requires Determined(a) && Agrees(a, b)
    ensures Derive(a) == Success(b)
  {
    var d := Derive(a).value;
    assert d.x == b.x;
    assert d.y == b.y;
  }

  /** Any enough, consistent description of a rectangle of positive size is
      accepted and builds exactly that rectangle. */
  lemma {:induction false} ResolveComplete(a: RectArgs, b: Rect)
    requires Determined(a) && Agrees(a, b) && b.Valid()
    ensures Resolve(a) == Success(b)
  {
    DeriveUnique(a, b);
  }

  /** A `Conflicting` error is raised only when no rectangle at all agrees
      with the arguments. */
  lemma {:induction false} ConflictMeansNoRectangle(a: RectArgs, b: Rect)
    requires Agrees(a, b)
    ensures !(Resolve(a).Failure? && Resolve(a).error.Conflicting?)
  {
    if Determined(a) {
      DeriveUnique(a, b);
    }
  }

  /** The constructor as written rejects `Rectangle(x=0, width=10, height=10, top=5)`,
      a consistent description of the rectangle at (0, 5), which the intended
      check accepts. */
  lemma TopCheckAsWrittenRejectsConsistentArgs()
    ensures
      var a := RectArgs(Some(0), None, Some(10), Some(10), Some(5), None, None, None);
      && ResolveAsWritten(a) == Failure(Conflicting(Top))
      && Resolve(a) == Success(Rect(0, 5, 10, 10))
  {
  }

  /** Without a top or bottom argument the written and intended constructors agree. */
  lemma AsWrittenAgreesWithoutVerticalEdges(a: RectArgs)
    requires a.top.None? && a.bottom.None?
    ensures ResolveAsWritten(a) == Resolve(a)
  {
  }

  /** A mutable rectangle; `Value()` is the rectangle it currently holds. */
  class Rectangle {
    var x: int
    var y: int
    var w: int
    var h: int

    /** The class keeps the size positive. */
    predicate Valid()
      reads this
    {
      w > 0 && h > 0
    }

    function Value(): Rect
      reads this
    {
      Rect(x, y, w, h)
    }

    /** Stores an already resolved rectangle. */
    constructor FromRect(r: Rect)
      requires r.Valid()
      ensures Valid() && Value() == r
    {
      x, y, w, h := r.x, r.y, r.width, r.height;
    }

    /** `Rectangle(...)`: a new rectangle, or the error the arguments raise. */
    static method New(a: RectArgs) returns (r: Result<Rectangle, GeometryError>)
      ensures r.Success? <==> Resolve(a).Success?
      ensures r.Success? ==> fresh(r.value) && r.value.Valid() && r.value.Value() == Resolve(a).value
      ensures r.Failure? ==> r.error == Resolve(a).error
    {
      var resolved := Resolve(a);
      if resolved.Failure? {
        return Failure(resolved.error);
      }
      var rect := new Rectangle.FromRect(resolved.value);
      r := Success(rect);
    }

    /** The `left` (and `x`) getter: not right of the right edge. */
    function Left(): (r: int)
      reads this
      ensures Valid() ==> r <= Value().Right()
    {
      x
    }

    /** The `top` (and `y`) getter: not below the bottom edge. */
    function Top(): (r: int)
      reads this
      ensures Valid() ==> r <= Value().Bottom()
    {
      y
    }

    /** The `right` getter: columns left to right are `w` many. */
    function Right(): (r: int)
      reads this
      ensures r - Left() + 1 == w
    {
      Value().Right()
    }

    /** The `bottom` getter: rows top to bottom are `h` many. */
    function Bottom(): (r: int)
      reads this
      ensures r - Top() + 1 == h
    {
      Value().Bottom()
    }

    /** The `left` (and `x`) setter moves the rectangle horizontally. */
    method SetLeft(value: int)
      requires Valid()
      modifies this
      ensures Valid() && Value() == old(Value()).(x := value)
      ensures Left() == value
    {
      x := value;
    }

    /** The `top` (and `y`) setter moves the rectangle vertically. */
    method SetTop(value: int)
      requires Valid()
      modifies this
      ensures Valid() && Value() == old(Value()).(y := value)
      ensures Top() == value
    {
      y := value;
    }

    /** The `right` setter moves the rectangle so that its right edge reads
        back as `value`; the size does not change. */
    method SetRight(value: int)
      requires Valid()
      modifies this
      ensures Valid() && Value() == old(Value()).WithRight(value)
      ensures Right() == value && w == old(w) && h == old(h) && y == old(y)
    {
      x := value - w + 1;
    }

    /** The `bottom` setter moves the rectangle so that its bottom edge reads
        back as `value`; the size does not change. */
    method SetBottom(value: int)
      requires Valid()
      modifies this
      ensures Valid() && Value() == old(Value()).WithBottom(value)
      ensures Bottom() == value && w == old(w) && h == old(h) && x == old(x)
    {
      y := value - h + 1;
    }

    /** The `width` setter: a non-positive width raises and changes nothing. */
    method SetWidth(value: int) returns (o: Outcome<GeometryError>)
      requires Valid()
      modifies this
      ensures Valid()
      ensures o.Pass? <==> value > 0
      ensures o.Pass? ==> Value() == old(Value()).(width := value)
      ensures o.Fail? ==> o.error == NonPositive(Width) && Value() == old(Value())
    {
      if value <= 0 {
        return Fail(NonPositive(Width));
      }
      w := value;
      o := Pass;
    }

    /** The `height` setter: a non-positive height raises and changes nothing. */
    method SetHeight(value: int) returns (o: Outcome<GeometryError>)
      requires Valid()
      modifies this
      ensures Valid()
      ensures o.Pass? <==> value > 0
      ensures o.Pass? ==> Value() == old(Value()).(height := value)
      ensures o.Fail? ==> o.error == NonPositive(Height) && Value() == old(Value())
    {
      if value <= 0 {
        return Fail(NonPositive(Height));
      }
      h := value;
      o := Pass;
    }

    /** `move_by`: translates the rectangle; the size is kept. */
    method MoveBy(dx: int, dy: int)
      requires Valid()
      modifies this
      ensures Valid() && Value() == old(Value()).MovedBy(dx, dy)
    {
      x := x + dx;
      y := y + dy;
    }

    /** `move_to`: places the top-left corner at (newX, newY); the size is kept. */
    method MoveTo(newX: int, newY: int)
      requires Valid()
      modifies this
      ensures Valid() && Value() == old(Value()).(x := newX, y := newY)
    {
      x := newX;
      y := newY;
    }

    /** `resize_to`: sets both sizes, or raises for a non-positive one and
        changes nothing; the position is kept. */
    method ResizeTo(width: int, height: int) returns (o: Outcome<GeometryError>)
      requires Valid()
      modifies this
      ensures Valid()
      ensures o.Pass? <==> old(Value()).ResizedTo(width, height).Success?
      ensures o.Pass? ==> Value() == old(Value()).ResizedTo(width, height).value
      ensures o.Fail? ==> o.error == old(Value()).ResizedTo(width, height).error && Value() == old(Value())
    {
      if width <= 0 {
        return Fail(NonPositive(Width));
      }
      if height <= 0 {
        return Fail(NonPositive(Height));
      }
      w, h := width, height;
      o := Pass;
    }

    /** `resize_by`: exactly `resize_to(w + dw, h + dh)`. */
    method ResizeBy(dw: int, dh: int) returns (o: Outcome<GeometryError>)
      requires Valid()
      modifies this
      ensures Valid()
      ensures o.Pass? <==> old(Value()).ResizedTo(old(w) + dw, old(h) + dh).Success?
      ensures o.Pass? ==> Value() == old(Value()).ResizedTo(old(w) + dw, old(h) + dh).value
      ensures o.Fail? ==> o.error == old(Value()).ResizedTo(old(w) + dw, old(h) + dh).error && Value() == old(Value())
    {
      o := ResizeTo(w + dw, h + dh);
    }
  }
}

=== FILE: tasks.dfy ===
/** Tasks queued for the event thread: `EventDelegate` in `_event_thread.py`
    and `EventTask` in `_thread.py`, which hold the same fields and the same
    dispatch logic.

    A task wraps a function call. Dispatching it runs the call once, records
    that it is done, and stores either the value returned or the exception
    raised; dispatching it again does nothing. The call itself is outside the
    model: `CallResult` is what invoking the function would do, fixed when the
    task is created. */
module Tasks {
  import opened Wrappers

  /** What invoking the task's function does: return a value or raise. */
  datatype CallResult<V, X> = Returned(value: V) | Raised(exception: X)

  /** The observable fields of a task: `__done`, `__return` and `__exception`
      (`None` is Python's None, the value both hold until dispatch). */
  datatype TaskState<V, X> = TaskState(done: bool, ret: Option<V>, exception: Option<X>) {

    /** `has_exception()`. In a consistent state it holds exactly when an
        exception is recorded. */
    predicate HasException()
      ensures Consistent() ==> (HasException() <==> exception.Some?)
    {
      done && exception.Some?
    }

    /** Until dispatch, neither a value nor an exception is recorded. */
    predicate Consistent() {
      !done ==> ret.None? && exception.None?
    }
  }

  /** A task as created: not done, nothing recorded. */
  function Created<V, X>(): (st: TaskState<V, X>)
    ensures st.Consistent() && !st.done && !st.HasException()
  {
    TaskState(false, None, None)
  }

  /** `dispatch()`: the first dispatch invokes the function and records its
      outcome; a dispatch of a task already done changes nothing. */
  function Dispatched<V, X>(st: TaskState<V, X>, call: CallResult<V, X>): (r: TaskState<V, X>)
    requires st.Consistent()
    ensures r.Consistent() && r.done
    ensures st.done ==> r == st
    ensures !st.done ==> (r.HasException() <==> call.Raised?)
    ensures !st.done && call.Returned? ==> r.ret == Some(call.value)
    ensures !st.done && call.Raised? ==> r.ret.None? && r.exception == Some(call.exception)
  {
    if st.done then st
    else
      match call
      case Returned(v) => st.(done := true, ret := Some(v))
      case Raised(e) => st.(done := true, exception := Some(e))
  }

  /** Any later dispatch, whatever its call would do, leaves the task as the
      first dispatch left it. */
  lemma DispatchAtMostOnce<V, X>(st: TaskState<V, X>, first: CallResult<V, X>, later: CallResult<V, X>)
    requires st.Consistent()
    ensures Dispatched(Dispatched(st, first), later) == Dispatched(st, first)
  {
  }

  /** A task object. `invocations` counts the calls of the function so far. */
  class EventTask<V, X> {
    const call: CallResult<V, X>
    var done: bool
    var ret: Option<V>
    var exception: Option<X>
    ghost var invocations: nat

    /** The function has run exactly when the task is done, and then once. */
    ghost predicate Valid()
      reads this
    {
      && invocations == (if done then 1 else 0)
      && State().Consistent()
    }

    function State(): TaskState<V, X>
      reads this
    {
      TaskState(done, ret, exception)
    }

    constructor (call: CallResult<V, X>)
      ensures Valid() && this.call == call && State() == Created()
    {
      this.call := call;
      done, ret, exception := false, None, None;
      invocations := 0;
    }

    /** `done()`: true exactly when the function has run. */
    function Done(): (d: bool)
      reads this
      ensures Valid() ==> (d <==> invocations == 1)
    {
      done
    }

    /** `has_exception()`: only a task that is done has one. */
    function HasException(): (b: bool)
      reads this
      ensures b ==> Done()
      ensures Valid() ==> (b <==> exception.Some?)
    {
      State().HasException()
    }

    /** `result()`: None until the task is done. */
    function Result(): (r: Option<V>)
      reads this
      ensures Valid() && !Done() ==> r.None?
    {
      ret
    }

    /** `exception()`: None until the task is done; a recorded exception
        makes `has_exception()` hold. */
    function Exception(): (r: Option<X>)
      reads this
      ensures Valid() && !Done() ==> r.None?
      ensures Valid() && r.Some? ==> HasException()
    {
      exception
    }

    /** `dispatch()`: runs the function unless the task is done, so over the
        task's whole life the function runs at most once. */
    method Dispatch()
      requires Valid()
      modifies this
      ensures Valid() && Done() && invocations == 1
      ensures State() == Dispatched(old(State()), call)
      ensures old(done) ==> State() == old(State())
      ensures !old(done) ==> (HasException() <==> call.Raised?)
      ensures !old(done) && call.Returned? ==> Result() == Some(call.value)
    {
      if done {
        return;
      }
      done := true;
      invocations := invocations + 1;
      match call
      case Returned(v) =>
        ret := Some(v);
      case Raised(e) =>
        exception := Some(e);
    }
  }
}

=== FILE: thread.dfy ===
/** The event thread object of `_thread.py`: its task queue, the flag saying
    a drain is in progress, and its stage.

    Stage 0 is "not running the loop", stage 1 serves only the task queue,
    stage 2 runs the SDL event loop. Only the queue drain and the stage-1
    termination are modelled; the thread's run loop is not. */
module Threading {
  import opened Wrappers
  import opened Tasks

  /** The error `terminate_stage1` raises as written. */
  datatype ThreadError = AttributeError

  /** The stage after `terminate_stage1`, as intended: stage 1 ends at once;
      stage 2 ends only when no event listener and no window is left; any
      other stage is kept. */
  function StageAfterTerminate(stage: int, listeners: nat, windows: nat): (r: int)
    ensures r == 0 || r == stage
    ensures stage == 1 ==> r == 0
    ensures r != stage ==> stage == 1 || (stage == 2 && listeners + windows == 0)
  {
    if stage == 1 then 0
    else if stage == 2 && listeners + windows <= 0 then 0
    else stage
  }

  /** `terminate_stage1` as written: its second branch reads `self.__state`,
      an attribute that is never set, so every stage but 1 raises. */
  function TerminateStage1AsWritten(stage: int, listeners: nat, windows: nat): Result<int, ThreadError> {
    if stage == 1 then Success(0) else Failure(AttributeError)
  }

  /** In stage 2 with no listener and no window left, the method as written
      raises where the intended one ends the stage; in stage 1 both agree. */
  lemma TerminateAsWrittenRaisesInStage2()
    ensures TerminateStage1AsWritten(2, 0, 0) == Failure(AttributeError)
    ensures StageAfterTerminate(2, 0, 0) == 0
    ensures TerminateStage1AsWritten(1, 0, 0) == Success(StageAfterTerminate(1, 0, 0))
  {
  }

  class EventThread<V, X> {
    var taskQueue: seq<EventTask<V, X>>
    var stage: int
    var inQueue: bool
    ghost var log: seq<EventTask<V, X>>

    constructor ()
      ensures taskQueue == [] && stage == 0 && !inQueue && log == []
    {
      taskQueue, stage, inQueue, log := [], 0, false, [];
    }

    /** `get_task()`: the oldest queued task, removed, or `None`. */
    method GetTask() returns (task: Option<EventTask<V, X>>)
      modifies this`taskQueue
      ensures old(taskQueue) == [] ==> task.None? && taskQueue == []
      ensures old(taskQueue) != [] ==> task == Some(old(taskQueue)[0]) && taskQueue == old(taskQueue)[1..]
    {
      if taskQueue == [] {
        return None;
      }
      task := Some(taskQueue[0]);
      taskQueue := taskQueue[1..];
    }

    /** `drain_queue()`: dispatches every queued task, oldest first, until
        the queue is empty; the in-queue flag is cleared on exit. */
    method DrainQueue()
      requires forall t :: t in taskQueue ==> t.Valid()
      modifies this, set t | t in taskQueue
      ensures taskQueue == [] && !inQueue && stage == old(stage)
      ensures log == old(log) + old(taskQueue)
      ensures forall t :: t in old(taskQueue) ==> t.Valid() && t.Done()
      ensures forall t :: t in old(taskQueue) ==> old(t.State()).Consistent() && t.State() == Dispatched(old(t.State()), t.call)
    {
      inQueue := true;
      ghost var popped: seq<EventTask<V, X>> := [];
      while true
        invariant old(taskQueue) == popped + taskQueue
        invariant log == old(log) + popped
        invariant stage == old(stage)
        invariant forall t :: t in old(taskQueue) ==> t.Valid()
        invariant forall t :: t in popped ==> t.Done()
        invariant forall t :: t in old(taskQueue) ==> old(t.State()).Consistent()
        invariant forall t :: t in old(taskQueue) ==> t.State() == old(t.State()) || t.State() == Dispatched(old(t.State()), t.call)
        invariant forall t :: t in popped ==> t in old(taskQueue) && t.State() == Dispatched(old(t.State()), t.call)
        decreases |taskQueue|
      {
        var task := GetTask();
        if task.None? {
          break;
        }
        var t := task.value;
        assert t in old(taskQueue);
        t.Dispatch();
        popped := popped + [t];
        log := log + [t];
      }
      inQueue := false;
    }

    /** `terminate_stage1()`, given how many event listeners and windows
        exist: stage 1 moves to stage 0. */
    method TerminateStage1(listeners: nat, windows: nat)
      modifies this`stage
      ensures stage == StageAfterTerminate(old(stage), listeners, windows)
      ensures old(stage) == 1 ==> stage == 0
    {
      if stage == 1 {
        stage := 0;
      } else if stage == 2 {
        if listeners + windows <= 0 {
          stage := 0;
        }
      }
    }
  }
}

=== FILE: window.dfy ===
/** Window creation arguments and the window registry (`_window.py`).

    A window position holds x, y and an optional width and height; a missing
    size defaults to half the usable bounds of the window's display, written
    back into the position. The flag word passed to SDL_CreateWindow is built
    from the creation options, using the flag values of SDL 2's
    `SDL_WindowFlags`. Windows created by the library are kept in a map from
    SDL window id to window object. */
module Windows {
  import opened Wrappers

  /** SDL_WINDOW_FULLSCREEN. */
  const FlagFullscreen: bv32 := 0x0000_0001
  /** SDL_WINDOW_SHOWN. */
  const FlagShown: bv32 := 0x0000_0004
  /** SDL_WINDOW_HIDDEN. */
  const FlagHidden: bv32 := 0x0000_0008
  /** SDL_WINDOW_RESIZABLE. */
  const FlagResizable: bv32 := 0x0000_0020
  /** SDL_WINDOW_MINIMIZED. */
  const FlagMinimized: bv32 := 0x0000_0040
  /** SDL_WINDOW_MAXIMIZED. */
  const FlagMaximized: bv32 := 0x0000_0080
  /** SDL_WINDOW_FULLSCREEN_DESKTOP, which is SDL_WINDOW_FULLSCREEN | 0x1000. */
  const FlagFullscreenDesktop: bv32 := 0x0000_1001

  /** `Window.FullScreen`: WINDOW, DESKTOP or REAL. */
  datatype FullScreen = Windowed | Desktop | Real

  /** Whether every bit of `flag` is set in `word`. */
  predicate HasFlag(word: bv32, flag: bv32) {
    word & flag == flag
  }

  /** The flag word `Window.create` assembles: SHOWN or HIDDEN by
      visibility, RESIZABLE, MINIMIZED and MAXIMIZED by their options,
      FULLSCREEN_DESKTOP for desktop full screen and FULLSCREEN for real full
      screen. No other bit is set. */
  method CreateFlags(visible: bool, resizable: bool, minimized: bool, maximized: bool, fullscreen: FullScreen)
    returns (flags: bv32)
    ensures HasFlag(flags, FlagShown) <==> visible
    ensures HasFlag(flags, FlagHidden) <==> !visible
    ensures HasFlag(flags, FlagResizable) <==> resizable
    ensures HasFlag(flags, FlagMinimized) <==> minimized
    ensures HasFlag(flags, FlagMaximized) <==> maximized
    ensures HasFlag(flags, FlagFullscreenDesktop) <==> fullscreen == Desktop
    ensures HasFlag(flags, FlagFullscreen) <==> fullscreen != Windowed
    ensures flags & !(FlagShown | FlagHidden | FlagResizable | FlagMinimized | FlagMaximized | FlagFullscreenDesktop) == 0
  {
    flags := 0;
    if visible {
      flags := flags | FlagShown;
    } else {
      flags := flags | FlagHidden;
    }
    if resizable {
      flags := flags | FlagResizable;
    }
    if minimized {
      flags := flags | FlagMinimized;
    }
    if maximized {
      flags := flags | FlagMaximized;
    }
    if fullscreen == Desktop {
      flags := flags | FlagFullscreenDesktop;
    } else if fullscreen == Real {
      flags := flags | FlagFullscreen;
    }
  }

  /** A size as `get_arguments_from_position` fills it in: a supplied size is
      kept, a missing one is half the usable extent rounded down (Python's
      `//`, which for the divisor 2 agrees with Dafny's `/`). */
  function FilledSize(given: Option<int>, usable: int): (r: int)
    ensures given.Some? ==> r == given.value
    ensures given.None? ==> 2 * r <= usable < 2 * r + 2
  {
    if given.Some? then given.value else usable / 2
  }

  /** Position and size as passed to SDL_CreateWindow. */
  datatype WindowGeometry = WindowGeometry(x: int, y: int, width: int, height: int)

  /** `WindowPosition`: where a window goes, on which display, and how big
      it is if the size was given. */
  class WindowPosition {
    var x: int
    var y: int
    var width: Option<int>
    var height: Option<int>
    const display: int

    constructor (x: int, y: int, width: Option<int>, height: Option<int>, display: int)
      ensures this.x == x && this.y == y && this.width == width && this.height == height
      ensures this.display == display
    {
      this.x, this.y, this.width, this.height := x, y, width, height;
      this.display := display;
    }
  }

  /** `get_arguments_from_position(position)`: the position's geometry, with
      any missing size filled in from the usable bounds of its display and
      written back, so that a second call returns the same geometry.
      `usableWidth` and `usableHeight` are what `display.usable_bounds`
      reports for the position's display. */
  method GetArgumentsFromPosition(position: WindowPosition, usableWidth: int, usableHeight: int)
    returns (g: WindowGeometry)
    modifies position
    ensures g.x == old(position.x) && g.y == old(position.y)
    ensures g.width == FilledSize(old(position.width), usableWidth)
    ensures g.height == FilledSize(old(position.height), usableHeight)
    ensures position.x == old(position.x) && position.y == old(position.y)
    ensures position.width == Some(g.width) && position.height == Some(g.height)
  {
    if position.width.None? || position.height.None? {
      if position.width.None? {
        position.width := Some(usableWidth / 2);
      }
      if position.height.None? {
        position.height := Some(usableHeight / 2);
      }
    }
    g := WindowGeometry(position.x, position.y, position.width.value, position.height.value);
  }

  /** The arguments of SDL_CreateWindow: title, geometry and flags. */
  datatype CreateArguments = CreateArguments(title: string, geometry: WindowGeometry, flags: bv32)

  /** The arguments `Window.create` hands to the event thread. */
  method CreateWindowArguments(
    title: string, position: WindowPosition, usableWidth: int, usableHeight: int,
    visible: bool, resizable: bool, minimized: bool, maximized: bool, fullscreen: FullScreen)
    returns (args: CreateArguments)
    modifies position
    ensures args.title == title
    ensures args.geometry.width == FilledSize(old(position.width), usableWidth)
    ensures args.geometry.height == FilledSize(old(position.height), usableHeight)
    ensures args.geometry.x == old(position.x) && args.geometry.y == old(position.y)
    ensures position.x == old(position.x) && position.y == old(position.y)
    ensures position.width == Some(args.geometry.width) && position.height == Some(args.geometry.height)
    ensures HasFlag(args.flags, FlagShown) <==> visible
    ensures HasFlag(args.flags, FlagHidden) <==> !visible
    ensures HasFlag(args.flags, FlagResizable) <==> resizable
    ensures HasFlag(args.flags, FlagMinimized) <==> minimized
    ensures HasFlag(args.flags, FlagMaximized) <==> maximized
    ensures HasFlag(args.flags, FlagFullscreenDesktop) <==> fullscreen == Desktop
    ensures HasFlag(args.flags, FlagFullscreen) <==> fullscreen != Windowed
    ensures args.flags & !(FlagShown | FlagHidden | FlagResizable | FlagMinimized | FlagMaximized | FlagFullscreenDesktop) == 0
  {
    var geometry := GetArgumentsFromPosition(position, usableWidth, usableHeight);
    var flags := CreateFlags(visible, resizable, minimized, maximized, fullscreen);
    args := CreateArguments(title, geometry, flags);
  }

  /** The errors of the window registry: the RuntimeError for a lookup from
      another thread than the event thread, `Window.NotFound` for an unknown
      id, and the UIError for a window SDL gave no id. */
  datatype WindowError = WrongThread | NotFound(id: int) | NoWindowId

  /** The module's map from window id to window object. */
  class WindowRegistry<W> {
    var windows: map<int, W>

    constructor ()
      ensures windows == map[]
    {
      windows := map[];
    }

    /** `Window(id)`: the window registered under `id`. Only the event
        thread may ask; `onEventThread` says whether the caller is it. */
    method Lookup(id: int, onEventThread: bool) returns (r: Result<W, WindowError>)
      ensures !onEventThread ==> r == Failure(WrongThread)
      ensures onEventThread ==> (r.Success? <==> id in windows)
      ensures r.Success? ==> id in windows && r.value == windows[id]
      ensures onEventThread && id !in windows ==> r == Failure(NotFound(id))
    {
      if !onEventThread {
        return Failure(WrongThread);
      }
      if id in windows {
        return Success(windows[id]);
      }
      return Failure(NotFound(id));
    }

    /** The end of `Window._create`: a window SDL gave the id 0 is an error;
        otherwise the window is registered under its id, and a later lookup
        of that id finds it. */
    method Register(windowId: int, window: W) returns (o: Outcome<WindowError>)
      modifies this
      ensures windowId == 0 ==> o == Fail(NoWindowId) && windows == old(windows)
      ensures windowId != 0 ==> o == Pass && windows == old(windows)[windowId := window]
      ensures windowId != 0 ==> windowId in windows && windows[windowId] == window
    {
      if windowId == 0 {
        return Fail(NoWindowId);
      }
      windows := windows[windowId := window];
      o := Pass;
    }
  }
}

=== FILE: wrappers.dfy ===
/** Optional values and error-carrying results, used where the Python code
    returns None or raises an exception. */
module Wrappers {

  /** A value that may be missing (Python's `None`). */
  datatype Option<+T> = None | Some(value: T)

  /** The value of a call that either returns or raises. */
  datatype Result<+T, +E> = Success(value: T) | Failure(error: E)

  /** The outcome of a call whose only observable result is whether it raised. */
  datatype Outcome<+E> = Pass | Fail(error: E)
}
